=== FILE: README.md ===
# Kirana order engine, modelled in Dafny

A model of the order-processing core of a small grocery ("kirana") ordering
app. A customer's message is turned into an intent by a language model. An
`order` intent reaches `apply_order`, which checks each requested line
against the in-memory stock and decrements the stock. If at least one line
was accepted, it creates an order with the next id and saves it to SQLite.
Around that sit:

- the delivery lifecycle `update_statuses`: processing, then
  out-for-delivery, then delivered;
- the stock rebuild `recompute_inventory_from_orders`, the same loop that
  runs at startup;
- the startup logic that loads orders and chat and sets the order counter;
- `extract_json_block`, which digs the JSON object out of the model's reply;
- the storage layer's table transforms: `save_order`, `_persist_order`,
  `update_order_status`, `load_orders`, `save_chat`, `load_chat` and
  `price_for_item`.

Everything is stated over values. The inventory is a `map<string, int>`. The
order log is a `seq<Order>`. The counter is an `int`. The database tables
are sequences of rows, and the primary key is the `UniqueIds` predicate.
Every operation is a pure function, or a method with a loop. The language
model, `json.loads`, the clock and the clarification call are parameters.

Modules, in dependency order:

| file | module | what it holds |
|---|---|---|
| records.dfy | Records | `Option`, `Status` and its rank, `(name, qty)` pairs, line items, `Order` |
| catalog.dfy | Catalog | the hard-coded `INVENTORY` and `PRICES`, `price_for_item` |
| decimal.dfy | Decimal | `str(int)`, needed for the reason `only N left` |
| order_store.dfy | OrderStore | the `orders` and `order_items` tables: save, persist, status update, load |
| chat_store.dfy | ChatStore | the `chat_messages` table: save and load |
| reconcile.dfy | Reconcile | the clamped stock rebuild from the log |
| order_engine.dfy | OrderEngine | `apply_order` |
| lifecycle.dfy | Lifecycle | `update_statuses` |
| json_block.dfy | JsonBlock | `str.strip`, `find`/`rfind`, `extract_json_block` |
| session.dfy | Session | startup, the session invariants, order/status/recompute on session + database |
| conversation.dfy | Conversation | `gemini_parse` as two oracle attempts, intent routing, one user turn |

The session has two invariants:

- `Session.Consistent`: the stock equals the rebuild from the catalog and
  the log, the log's ids ascend, and the counter is above all of them.
- `Session.Mirrored`: loading the `orders` table gives back the log.

Startup establishes both. An order, a status pass and a whole user turn
that runs to completion preserve both. As a consequence, "Recompute
Inventory" is a no-op in a consistent session, and, with one session owning
the database, a new order's id never collides with a stored one.

Notes on the code:

- Orders are saved synchronously. app.py saves through `save_order`
  (storage.py:33) directly. The queued writer (`enqueue_order`, `_persist_order`, the worker
  thread) is never called from app.py, so `order_items` is never written by
  the app. `_persist_order` is still modelled, as `OrderStore.PersistOrder`.
- The JSON block is the span from the first `{` to the last `}`, kept only
  if that whole span balances (see `JsonBlock.TwoObjectsKeptTogether`).
- storage.py holds two concatenated versions of the module. The later
  definitions win: `update_order_status`, `save_chat`, `load_orders` and
  `price_for_item` from the second half. `save_order` and `load_chat` exist
  only in the first half.

## Model

| member | source | states |
|---|---|---|
| Catalog.OriginalStock | app.py:21-26 | the starting stock is milk 10, bread 5, rice 8, maggi 12, all non-negative |
| Catalog.PriceForItem | storage.py:220-221 | milk 25, bread 35, rice 80, maggi 15; any other name costs the default 10; every price is positive |
| Catalog.PricedItemsAreCatalogItems | storage.py:93-98 | the price table and the catalog name exactly the same items |
| Decimal.IntToText | app.py:177 | `str(n)` is never empty and starts with a minus sign exactly when n is negative; `Decimal.IntTextRoundTrip` reads it back as n |
| Decimal.IntTextRoundTrip | app.py:177 | the decimal rendering of any integer reads back as that integer |
| OrderEngine.EffectiveQty | app.py:172 | a missing or zero qty counts as 1, and any other qty is kept; the result is never 0, and is at least 1 exactly when the qty is missing or non-negative |
| OrderEngine.ReasonText | app.py:174-177 | a shortfall reason renders as "only " + count + " left", longer than either literal; `OrderEngine.ReasonTextRoundTrip` shows the text determines the reason |
| OrderEngine.ReasonTextRoundTrip | app.py:174-177 | the reason string `not_found` / `only N left` determines the reason, and for a shortfall the exact count left |
| OrderEngine.Step | app.py:170-184 | an unknown name is reported not_found with nothing else changed; a line over the remaining stock is reported `only N left` with N the current stock and nothing else changed; otherwise that item alone drops by the qty and the pair is appended |
| OrderEngine.ScanLines | app.py:166-184 | every line is either applied or reported unavailable; the stored line items project to the applied pairs; applied names are catalog names; the stock keeps its keys |
| OrderEngine.ScanStock | app.py:176-180 | each item's stock drops by exactly the total applied for it, and items not ordered are unchanged |
| OrderEngine.ScanTotal | app.py:181-184 | the total is the sum of price × qty over exactly the applied pairs; each line item carries its unit price and line total |
| OrderEngine.ScanOrderPreserved | app.py:170-180 | the applied pairs are requested (name, qty) pairs in request order |
| OrderEngine.ScanKeepsNonNegative | app.py:176-179 | a non-negative stock never goes negative |
| OrderEngine.ScanBounds | app.py:176-179 | with every qty ≥ 1, each item's stock stays within [0, what it was before the request] |
| OrderEngine.ScanIsFold | app.py:179-180 | the stock after the scan equals the reconciliation fold of the applied pairs, so clamping never fires on accepted lines |
| OrderEngine.ApplyOrder | app.py:165-191 | the applied pairs, the unavailable lines and the new stock are those of the scan of the requested lines; an order id is returned iff some line applied; it is then the old counter, the counter moves by one, the log gains `(counter, applied, processing, total)` and the table holds exactly one row with that id; otherwise stock, log, counter and table are unchanged |
| OrderEngine.ApplyOrderSavesRow | app.py:189-190 | the saved row carries the priced line items and the order total |
| OrderEngine.SingleLineApplied | app.py:170-191 | a one-line request the stock covers creates exactly one order, with the counter's id, that line's pair and its catalog price, and lowers only that item |
| OrderEngine.SingleLineShort | app.py:176-177 | a one-line request the stock cannot cover is reported with the stock left and changes nothing |
| OrderEngine.NegativeQtyRaisesStock | app.py:172-179 | a qty of -5 milk passes the stock check and raises milk from 10 to 15, creating an order of total -125 |
| OrderEngine.ScenarioA | app.py:170-191 | 3 milk from 10 leaves 7, bread untouched, order 1 of 75 in processing |
| OrderEngine.ScenarioB | app.py:176-177 | 10 bread against 5 is rejected as `only 5 left`, with no order and no stock change |
| OrderEngine.ScenarioC | app.py:176-188 | two orders of 2 milk leave 8 and then 6, and the second gets id 2 |
| OrderEngine.ScenarioD | app.py:173-175 | an unknown item is reported not_found and creates no order |
| OrderStore.Replace | storage.py:35-36 | after `REPLACE` exactly one row carries the id, the new row is present, rows with other ids are kept, and the key stays unique |
| OrderStore.SaveOrder | storage.py:33-37 | `save_order` leaves exactly one row for the id, holding the given status, total, texts and line items; other rows are untouched |
| OrderStore.AppendItems | storage.py:178-186 | one `order_items` row per line item, in order, with fresh ascending row ids, appended after the existing rows |
| OrderStore.PersistOrder | storage.py:163-187 | `_persist_order` upserts one orders row (missing texts become empty) and appends one item row per line item for that order id |
| OrderStore.PersistTwiceDuplicatesItems | storage.py:166-186 | persisting an order twice keeps one orders row but doubles its item rows |
| OrderStore.UpdateOrderStatusFrame | storage.py:189-193 | only the status of rows with the given id changes; other fields and rows are unchanged; an absent id changes nothing |
| OrderStore.UpdateOrderStatus | storage.py:189-193 | the table keeps its length; a row with the given id becomes that row with the new status, and every other row is unchanged |
| OrderStore.SortById | storage.py:207 | `ORDER BY id` returns the same rows (a permutation of the table); `OrderStore.SortByIdOrdered` shows they come out in id order |
| OrderStore.SortByIdOrdered | storage.py:207 | the rows sorted by id are in non-decreasing id order, and strictly ascending when ids are unique |
| OrderStore.LoadOrders | storage.py:204-218 | one order per stored row, ids non-decreasing, strictly ascending under the primary key |
| OrderStore.LoadOrdersContents | storage.py:209-217 | every stored row loads as its (id, projected items, status, total) and nothing else is loaded; unparsable items_json loads as an empty item list |
| OrderStore.SaveThenLoad | storage.py:33-37 | round trip: after `save_order`, `load_orders` returns the order with its id, status, total and the (name, qty) projection of the saved items, and no other order with that id |
| OrderStore.LoadAfterLargerId | storage.py:207 | a row with an id above all stored ids loads as the last order, after the unchanged earlier ones |
| OrderStore.LoadAfterStatusUpdate | storage.py:189-193 | a status UPDATE on the table is the same status change on the loaded log |
| ChatStore.SaveChat | storage.py:195-202 | the table is only appended to; the new row carries the given fields and an id above every earlier id; well-formedness is kept |
| ChatStore.NewestFirst | storage.py:65 | on a table whose ids ascend in storage order, `ORDER BY id DESC` returns every row, in reverse storage order, with strictly descending ids |
| ChatStore.NewestFirstDescends | storage.py:65 | `ORDER BY id DESC` lists rows in strictly descending id order |
| ChatStore.LoadChat | storage.py:63-69 | on a table whose ids ascend in storage order, the number of messages is min(limit, rows), or all rows for a negative limit |
| ChatStore.LoadChatDefault | storage.py:63 | the default call returns at most 200 messages |
| ChatStore.LoadChatIsNewestInOrder | storage.py:65-69 | on a table whose ids ascend in storage order, the result is exactly the messages with the largest ids, oldest first; every row left out has a smaller id than every row returned |
| ChatStore.SavedMessageLoadsLast | storage.py:63-69 | on an id-ordered table, a message just saved is the last one loaded, whenever the limit is not 0 |
| Reconcile.FoldPairs | app.py:207-209 | folding one order's pairs keeps the stock's keys, leaves every item the order does not name unchanged, and keeps non-negative stock non-negative |
| Reconcile.Recompute | app.py:203-210 | the rebuild (also the startup loop, app.py:47-54) is keyed exactly by the catalog and, from a non-negative catalog, never negative; `Reconcile.RecomputeClosedForm` gives each item's value |
| Reconcile.ApplyPair | app.py:208-209 | one step changes at most the named item, clamped at 0; an unknown name changes nothing |
| Reconcile.RecomputeNonNegative | app.py:209 | the rebuild never yields negative stock from a non-negative catalog |
| Reconcile.RecomputeClosedForm | app.py:203-210 | with non-negative quantities each item ends at max(0, catalog stock − total ordered) |
| Reconcile.RecomputeBounds | app.py:49-54 | with non-negative quantities each rebuilt level lies within [0, catalog stock] |
| Reconcile.UnknownNamesIgnored | app.py:208 | an order of only non-catalog names does not change the rebuild |
| Reconcile.RecomputeOrderInsensitive | app.py:206-209 | with non-negative quantities the rebuild is the same for any reordering of the log |
| Lifecycle.Advance | app.py:195-199 | an undelivered status moves exactly one rank forward; delivered stays delivered |
| Lifecycle.AdvanceTwiceDelivers | app.py:195-199 | two steps from any status reach delivered |
| Lifecycle.AdvanceAll | app.py:194-199 | one pass keeps every order's id, items and total, and moves each status one step (delivered stays) |
| Lifecycle.ChangedWrites | app.py:200-201 | a pass issues at most one write per order, and no write ever sets processing; `Lifecycle.WritesAreExactlyChanges` says which orders are written |
| Lifecycle.ApplyWrites | app.py:200-201 | the status UPDATEs, applied in order, change only statuses: every other field of every row is kept, and a row no write names is unchanged |
| Lifecycle.UpdateStatuses | app.py:193-201 | the loop yields the one-step advance of the whole log; it writes through exactly the orders that moved, in log order; a table that mirrored the log still mirrors it |
| Lifecycle.MirrorsPartial | app.py:194-201 | part-way through the loop, the table with the writes so far loads back as the log with the orders so far advanced |
| Lifecycle.TwoPassesDeliverAll | app.py:193-199 | two passes deliver every order |
| Lifecycle.PassIsIdleWhenDelivered | app.py:196-201 | once all orders are delivered a pass changes nothing and writes nothing |
| Lifecycle.ThirdPassIsIdle | app.py:193-201 | after two passes every further pass is idle |
| Lifecycle.WritesAreExactlyChanges | app.py:200-201 | a write `(id, status)` is issued iff the pass changed that order, and it carries the order's new status |
| JsonBlock.TrimStart | app.py:124 | drops exactly the maximal leading run of whitespace |
| JsonBlock.TrimEnd | app.py:124 | drops exactly the maximal trailing run of whitespace |
| JsonBlock.Strip | app.py:124 | `str.strip()` never lengthens its input; `JsonBlock.StripIsSlice` shows which slice it keeps |
| JsonBlock.StripIsSlice | app.py:124 | `strip()` yields an inner slice with only whitespace cut away on both sides, and it neither starts nor ends with whitespace |
| JsonBlock.AlnumRun | app.py:126 | `[a-zA-Z0-9]*` consumes the longest run of ASCII letters and digits |
| JsonBlock.DropOpenFence | app.py:125-126 | text that does not start with a fence is unchanged, and the result is never longer; `JsonBlock.OpenFenceRemoved` shows a tagged fence and its newline removed |
| JsonBlock.DropCloseFence | app.py:127-128 | text that does not end with a fence is unchanged, and the result is never longer; `JsonBlock.CloseFenceRemoved` shows a closing fence and its newline removed |
| JsonBlock.StripFences | app.py:124-128 | the fence-stripped reply is never longer than the reply |
| JsonBlock.StripFencesShortens | app.py:125-128 | a stripped reply that opens or closes with a fence loses at least three characters |
| JsonBlock.OpenFenceRemoved | app.py:124-126 | "```" + alphanumeric tag + "\n" + text, for text starting with `{` and ending with a backtick, is already stripped, and dropping the opening fence leaves exactly that text |
| JsonBlock.CloseFenceRemoved | app.py:127-128 | `{…}` + "\n```" loses the fence and the newline and leaves exactly the object |
| JsonBlock.Find | app.py:130 | -1 iff the character is absent, else its first position |
| JsonBlock.RFind | app.py:131 | -1 iff the character is absent, else its last position |
| JsonBlock.BalanceScan | app.py:136-145 | with no brace left to read, the loop accepts exactly when the running depth is 0; `JsonBlock.BalanceScanIsBalanced` gives the whole-string meaning |
| JsonBlock.BalanceScanIsBalanced | app.py:136-145 | the early-exit depth loop accepts exactly the strings whose brace depth never goes negative and ends at 0 |
| JsonBlock.FindBlock | app.py:130-146 | any block found starts with `{`, ends with `}` and balances; `JsonBlock.FindBlockSpan` says which span and when |
| JsonBlock.FindBlockSpan | app.py:130-146 | a block is found iff the first `{` precedes the last `}` and that span balances, and the block is that span |
| JsonBlock.ExtractJsonBlock | app.py:122-146 | any result starts with `{`, ends with `}`, has depth never negative and ending at 0 |
| JsonBlock.ExtractJsonBlockSpan | app.py:122-146 | the result is the first-`{`-to-last-`}` span of the fence-stripped reply, present exactly when that span balances |
| JsonBlock.NoBlockCases | app.py:130-133 | None when there is no `{`, no `}`, or every `}` precedes every `{` |
| JsonBlock.BareObjectExtracted | app.py:130-146 | a balanced object alone is returned whole |
| JsonBlock.FencedObjectExtracted | app.py:124-128 | "```tag\n{…}\n```" yields the object inside, for any alphanumeric tag |
| JsonBlock.TwoObjectsKeptTogether | app.py:130-134 | `{}{}` is returned as one span, not as its first object |
| Session.NextCounter | app.py:36-45 | the counter is the last loaded id plus one when that id is at least 1, and 1 otherwise (no orders, or a last id below 1); so it is at least 1 and, for ascending ids, above every loaded id |
| Session.RecomputeInventory | app.py:203-210 | only the stock changes, and it is keyed by the catalog |
| Session.Startup | app.py:38-54 | the log is the loaded table, the chat the last 200 messages, the counter the last loaded id plus one when that id is at least 1 and 1 otherwise, and the stock the rebuild from the catalog and the loaded log |
| Session.StartupConsistent | app.py:41-54 | a database with a unique order key and an id-ordered chat table starts a consistent, mirrored session |
| Session.StartupCounterIsFresh | app.py:41-45 | after startup no stored order has the counter's id, so the next order cannot overwrite one |
| Session.PlaceOrder | app.py:165-191 | an order on the session and the database is `apply_order` on the requested lines: applied pairs, unavailable lines and stock are the scan's, the session takes the outcome's log, counter and stock, the orders table the outcome's rows, and the chat is untouched |
| Session.PlaceOrderConsistent | app.py:179-189 | after an order the stock still equals the rebuild from the longer log, ids ascend and stay below the counter |
| Session.PlaceOrderMirrored | app.py:185-190 | after an order the table still loads back as the log |
| Session.RecomputeIgnoresStatus | app.py:206-209 | the rebuild reads only items: logs differing in statuses rebuild the same |
| Session.ProgressStatuses | app.py:193-201 | a status pass advances the log, applies the writes to the table, and keeps consistency and the mirror |
| Session.RecomputeIsNoOp | app.py:203-210 | in a consistent session the rebuild changes nothing |
| Session.RecomputeIdempotent | app.py:203-210 | rebuilding twice equals rebuilding once |
| Session.StockWithinCatalog | app.py:49-54 | with no negative quantity in the log, every stock level of a consistent session is within [0, catalog stock] |
| Conversation.Cleaned | app.py:153 | the cleaned text is the extracted block whenever `extract_json_block` finds one, and the whole reply when it finds none |
| Conversation.TryAttempt | app.py:150-161 | a failed model call yields its error; a reply yields exactly what decoding its cleaned text yields, so a reply holding a decodable block yields that payload |
| Conversation.Fallback | app.py:162 | after two failures the payload has intent unknown, no items, and a reply text that is the 15-character "Parsing error: " prefix followed by the last error |
| Conversation.GeminiParse | app.py:148-162 | the first attempt that decodes wins; after two failures the reply is intent unknown with "Parsing error: " and the last error |
| Conversation.GeminiParseSources | app.py:149-162 | the payload comes from one of the two attempts or is the unknown-intent fallback with no items |
| Conversation.RoutesToOrder | app.py:255-259 | only the intent `order` is routed to the order node; every other intent ends the turn |
| Conversation.OrderIdKey | app.py:240-241 | the order id is reported only when present and non-zero |
| Conversation.WithClarification | app.py:243-249 | the reply gets "\n" plus the stripped clarification only when something was unavailable and the clarification call succeeded |
| Conversation.ProcessUserMessage | app.py:233-259 | any intent other than `order` leaves the session and the database unchanged and reports no order; the order intent sends the payload's items to `apply_order`: the reported applied and unavailable lines and the new stock are those of the scan of those items, the reply text is the model's text with the clarification appended as `WithClarification` states, the order id is the created id under the `if oid:` rule, and the chat is untouched |
| Conversation.OrderCreatedIff | app.py:233-241 | an order is created iff the intent is order and some of the payload's items apply against the current stock; it then has the old counter as id, the counter moves by one and the log gains exactly `(counter, applied pairs, processing, their total)`; otherwise neither changes |
| Conversation.ParseFailureChangesNothing | app.py:148-162 | when both model calls fail the turn changes nothing and reports intent unknown |
| Conversation.TurnPreservesInvariants | app.py:270-283 | a whole turn keeps a consistent, mirrored session consistent and mirrored |

## Left out

- OrderEngine.ScanBounds: stated only for quantities ≥ 1. A negative qty passes the stock check and raises stock (`OrderEngine.NegativeQtyRaisesStock`), so no upper bound holds for it.
- Reconcile.RecomputeClosedForm: stated for non-negative quantities only. With a negative qty the clamp makes the result depend on where that order sits in the log.
- Reconcile.RecomputeOrderInsensitive: for non-negative quantities only, for the same reason.
- Reconcile.RecomputeBounds: for non-negative quantities only, for the same reason.
- Session.StockWithinCatalog: for logs without negative quantities only, for the same reason.
- Money is `int`. `total_amount` and the prices are Python floats, but every price is a whole number of rupees.
- `qty` is modelled as missing, null or a JSON integer. Floats are truncated, numeric strings are converted, and other strings raise. Non-string and missing names are left out too.
- The `items_json` text encoding is abstracted as "decodes to these line items, or does not decode". The JSON serialiser and parser are not modelled.
- Statuses are the three values the app writes. Any other text in the status column is not modelled.
- Timestamps from `datetime.utcnow()` are parameters. So are the language model's replies, `json.loads` and the clarification call. A payload that decodes to something other than an object is not modelled.
- The fallback branch of `process_user_message` for a missing graph (app.py:271-281) is not modelled. The graph is always built, so that branch does not run.
- The LangGraph construction is reduced to its routing. The Streamlit UI is left out, along with its in-memory chat list and debug fields. Speech input, text-to-speech and prompt formatting are left out too.
- A turn aborted by an exception is not modelled. `apply_order` lowers the stock line by line (app.py:179); an `int(...)` that raises on a later line (app.py:172), or a failing `save_order` (app.py:190), leaves the earlier decrements in place with no order logged. That drift is what "Recompute Inventory" repairs. `Session.Consistent`, `Session.Mirrored`, `Session.RecomputeIsNoOp` and `Conversation.TurnPreservesInvariants` are claimed only for turns that complete.
- One session owns data.db. Each Streamlit session derives its own counter at startup (app.py:36-45), so two sessions open at once can hand out the same id, and `INSERT OR REPLACE` then overwrites the other session's order. `Session.StartupCounterIsFresh` and `Session.PlaceOrderMirrored` assume no other writer.
- The `chat_messages` table is taken to be in ascending id order, as AUTOINCREMENT inserts leave it (`ChatStore.WellFormed`, kept by `ChatStore.SaveChat`). `ChatStore.LoadChat` and `Session.Startup` require it, and `ORDER BY id DESC` is read as the reverse of storage order.
- The "Reload From DB" button (app.py:495-499) is not modelled. It reloads orders and chat and rebuilds stock, but does not touch the order counter.
- SQLite connections and table creation are not modelled. Neither are the background worker, queue and lock (storage.py:89-91, 140-161), which app.py never starts.
- The first-half duplicates in storage.py (`init_db`, `update_order_status`, `load_orders`, `save_chat`, `price_for_item` at lines 11-79) are replaced by their later definitions. Only the later ones are modelled.

=== FILE: catalog.dfy ===
/** The store's hard-coded catalog (INVENTORY in app.py) and price table (PRICES in storage.py). */
module Catalog {
  import opened Records

  /** Catalog metadata per item: Hindi aliases, original stock and unit label. */
  datatype CatalogItem = CatalogItem(hindi: seq<string>, qty: int, unit: string)

  const Inventory: map<string, CatalogItem> :=
    map[
      "milk" := CatalogItem(["doodh"], 10, "packet"),
      "bread" := CatalogItem(["bread"], 5, "loaf"),
      "rice" := CatalogItem(["chawal"], 8, "kilo"),
      "maggi" := CatalogItem(["maggi"], 12, "packet")
    ]

  /** Unit prices in rupees; every listed price is a whole number, so `int` is exact. */
  const Prices: map<string, int> := map["milk" := 25, "bread" := 35, "rice" := 80, "maggi" := 15]

  /** Price charged for a name the table does not list. */
  const DefaultPrice: int := 10

  /** `{k: v['qty'] for k, v in INVENTORY.items()}`: the stock every rebuild starts from. */
  function OriginalStock(): (m: map<string, int>)
    ensures m == map["milk" := 10, "bread" := 5, "rice" := 8, "maggi" := 12]
    ensures NonNegative(m)
  {
    var m := map k | k in Inventory :: Inventory[k].qty;
    assert m.Keys == {"milk", "bread", "rice", "maggi"};
    m
  }

  /** `price_for_item`: the listed price, or the default for any other name. */
  function PriceForItem(name: string): (p: int)
    ensures name == "milk" ==> p == 25
    ensures name == "bread" ==> p == 35
    ensures name == "rice" ==> p == 80
    ensures name == "maggi" ==> p == 15
    ensures name !in {"milk", "bread", "rice", "maggi"} ==> p == 10
    ensures p > 0
  {
    if name in Prices then Prices[name] else DefaultPrice
  }

  /** Every catalog item has a listed price, and every listed price belongs to a catalog item. */
  lemma PricedItemsAreCatalogItems()
    ensures Prices.Keys == Inventory.Keys == OriginalStock().Keys
  {
  }
}

=== FILE: chat_store.dfy ===
/**
 * The `chat_messages` table of storage.py: `save_chat` (line 195, the later
 * definition) and `load_chat` (line 63, defined only in the first half).
 *
 * The id column is AUTOINCREMENT and rows are only ever inserted, so the table
 * is kept in ascending id order; `lastId` is the largest id handed out so far.
 */
module ChatStore {
  import opened Records

  datatype Role = User | Assistant

  /** A stored row; orderId None is a NULL order_id. */
  datatype ChatRow = ChatRow(id: int, ts: string, role: Role, text: string, orderId: Option<int>)

  datatype ChatTable = ChatTable(rows: seq<ChatRow>, lastId: int)

  /** A message as `load_chat` returns it: {ts, role, text, order_id}. */
  datatype ChatMessage = ChatMessage(ts: string, role: Role, text: string, orderId: Option<int>)

  /** Ids strictly ascend in storage order and none exceeds the AUTOINCREMENT counter. */
  predicate WellFormed(t: ChatTable)
  {
    && (forall i, j :: 0 <= i < j < |t.rows| ==> t.rows[i].id < t.rows[j].id)
    && (forall i :: 0 <= i < |t.rows| ==> t.rows[i].id <= t.lastId)
  }

  /** `save_chat`: INSERT one row with the next AUTOINCREMENT id; ts is the caller's clock reading. */
  function SaveChat(t: ChatTable, ts: string, role: Role, text: string, orderId: Option<int>): (r: ChatTable)
    ensures |r.rows| == |t.rows| + 1 && r.rows[..|t.rows|] == t.rows
    ensures var row := r.rows[|t.rows|];
            row.ts == ts && row.role == role && row.text == text && row.orderId == orderId
    ensures forall i :: 0 <= i < |t.rows| && WellFormed(t) ==> t.rows[i].id < r.rows[|t.rows|].id
    ensures WellFormed(t) ==> WellFormed(r)
  {
    ChatTable(t.rows + [ChatRow(t.lastId + 1, ts, role, text, orderId)], t.lastId + 1)
  }

  /** One row as a message: `IFNULL(order_id,'')`, then '' read back as None. */
  function ToMessage(row: ChatRow): ChatMessage
  {
    ChatMessage(row.ts, row.role, row.text, row.orderId)
  }

  function Messages(rows: seq<ChatRow>): (r: seq<ChatMessage>)
    ensures |r| == |rows|
    ensures forall i :: 0 <= i < |rows| ==> r[i] == ToMessage(rows[i])
  {
    seq(|rows|, i requires 0 <= i < |rows| => ToMessage(rows[i]))
  }

  function Reverse<T>(s: seq<T>): (r: seq<T>)
    ensures |r| == |s|
    ensures forall i :: 0 <= i < |s| ==> r[i] == s[|s| - 1 - i]
  {
    if |s| == 0 then [] else [s[|s| - 1]] + Reverse(s[..|s| - 1])
  }

  /** How many rows SQLite's `LIMIT limit` keeps of n; a negative limit means no limit. */
  function Kept(n: nat, limit: int): (k: nat)
    ensures k <= n
    ensures limit >= 0 ==> k <= limit
    ensures k == n || k == limit
  {
    if limit < 0 || limit > n then n else limit
  }

  /** `ORDER BY id DESC`: the rows of a well-formed table are stored ascending, so this is their reverse. */
  function NewestFirst(t: ChatTable): (r: seq<ChatRow>)
    requires WellFormed(t)
    ensures |r| == |t.rows|
    ensures forall i :: 0 <= i < |r| ==> r[i] == t.rows[|t.rows| - 1 - i]
    ensures forall i, j :: 0 <= i < j < |r| ==> r[i].id > r[j].id
  {
    Reverse(t.rows)
  }

  /** In a well-formed table the reversed rows are in strictly descending id order, as ORDER BY id DESC demands. */
  lemma NewestFirstDescends(t: ChatTable)
    requires WellFormed(t)
    ensures var d := NewestFirst(t);
            forall i, j :: 0 <= i < j < |d| ==> d[i].id > d[j].id
  {
  }

  /** `load_chat(limit)`: the newest `limit` rows by id, then `reversed(...)` into chronological order. */
  function LoadChat(t: ChatTable, limit: int): (r: seq<ChatMessage>)
    requires WellFormed(t)
    ensures |r| == Kept(|t.rows|, limit)
  {
    var desc := NewestFirst(t);
    Reverse(Messages(desc[..Kept(|desc|, limit)]))
  }

  /** `load_chat()` with its default limit of 200. */
  function LoadChatDefault(t: ChatTable): (r: seq<ChatMessage>)
    requires WellFormed(t)
    ensures |r| <= 200
  {
    LoadChat(t, 200)
  }

  /**
   * `load_chat` returns exactly the last `Kept` stored messages, oldest first:
   * in a well-formed table these are the ones with the largest ids, in id order.
   */
  lemma {:induction false} LoadChatIsNewestInOrder(t: ChatTable, limit: int)
    requires WellFormed(t)
    ensures var k := Kept(|t.rows|, limit);
            LoadChat(t, limit) == Messages(t.rows[|t.rows| - k..])
    ensures var k := Kept(|t.rows|, limit);
            forall i, j :: 0 <= i < |t.rows| - k <= j < |t.rows| ==> t.rows[i].id < t.rows[j].id
  {
    LoadChatReversesNewest(t, limit);
  }

  /** The reversed newest-first prefix is the table's suffix of the same length. */
  lemma LoadChatReversesNewest(t: ChatTable, limit: int)
    requires WellFormed(t)
    ensures var k := Kept(|t.rows|, limit);
            LoadChat(t, limit) == Messages(t.rows[|t.rows| - k..])
  {
    var n := |t.rows|;
    var k := Kept(n, limit);
    var desc := NewestFirst(t);
    var lhs := LoadChat(t, limit);
    var rhs := Messages(t.rows[n - k..]);
    assert |lhs| == |rhs| == k;
    forall i | 0 <= i < k
      ensures lhs[i] == rhs[i]
    {
      var m := Messages(desc[..k]);
      assert lhs[i] == m[k - 1 - i];
      assert desc[k - 1 - i] == t.rows[n - 1 - (k - 1 - i)];
    }
  }

  /** Saving a message and loading with room for it returns that message last. */
  lemma SavedMessageLoadsLast(t: ChatTable, ts: string, role: Role, text: string, orderId: Option<int>, limit: int)
    requires WellFormed(t) && limit != 0
    ensures var loaded := LoadChat(SaveChat(t, ts, role, text, orderId), limit);
            |loaded| > 0 && loaded[|loaded| - 1] == ChatMessage(ts, role, text, orderId)
  {
    var t' := SaveChat(t, ts, role, text, orderId);
    LoadChatIsNewestInOrder(t', limit);
  }
}

=== FILE: conversation.dfy ===
/**
 * One user turn: `gemini_parse` (app.py:148-162) turns the reply of the
 * language model into a payload, and the graph (lines 225-259, invoked from
 * `process_user_message`, lines 270-283) sends only `intent == "order"` on to
 * `apply_order`, adding a clarification line when some items were unavailable.
 *
 * The model is an oracle: each call's outcome is a parameter, and so is
 * `json.loads`, whose error text ends up in the fallback reply.
 */
module Conversation {
  import opened Records
  import JsonBlock
  import OrderEngine
  import Session

  /** The fields of the parsed reply the app reads: intent, items, response_text. */
  datatype Payload = Payload(intent: string, items: seq<OrderEngine.RequestLine>, responseText: string)

  /** One `generate_content` call: the reply text (`resp.text or ''`), or the exception it raised. */
  datatype Attempt = Reply(text: string) | CallFailed(error: string)

  /** `json.loads` on the cleaned text: a payload, or the exception's message. */
  datatype Decoded = Parsed(payload: Payload) | DecodeFailed(error: string)

  /** `extract_json_block(raw_text) or raw_text`: the balanced block if there is one, else the whole reply. */
  function Cleaned(raw: string): (c: string)
    ensures c == raw || (|c| >= 2 && c[0] == '{' && c[|c| - 1] == '}' && JsonBlock.Balanced(c))
    ensures JsonBlock.ExtractJsonBlock(raw).None? ==> c == raw
    ensures JsonBlock.ExtractJsonBlock(raw).Some? ==> c == JsonBlock.ExtractJsonBlock(raw).value
  {
    match JsonBlock.ExtractJsonBlock(raw)
    case Some(block) => block
    case None => raw
  }

  /** What one attempt yields: a payload, or the error that sends the loop to its next attempt. */
  function TryAttempt(a: Attempt, decode: string -> Decoded): (d: Decoded)
    ensures a.CallFailed? ==> d == DecodeFailed(a.error)
    ensures a.Reply? ==> d == decode(Cleaned(a.text))
    ensures d.Parsed? ==> a.Reply?
  {
    match a
    case CallFailed(e) => DecodeFailed(e)
    case Reply(text) => decode(Cleaned(text))
  }

  /** The reply when both attempts fail. */
  function Fallback(lastError: string): (p: Payload)
    ensures p.intent == "unknown" && p.items == []
    ensures |p.responseText| == 15 + |lastError| && p.responseText[15..] == lastError
  {
    Payload("unknown", [], "Parsing error: " + lastError)
  }

  /**
   * `gemini_parse`: the first attempt uses the plain prompt, the second the
   * "raw minified JSON" prompt; the first payload that decodes is returned, and
   * after two failures the unknown-intent fallback carries the last error.
   */
  function GeminiParse(first: Attempt, second: Attempt, decode: string -> Decoded): (p: Payload)
    ensures TryAttempt(first, decode).Parsed? ==> p == TryAttempt(first, decode).payload
    ensures TryAttempt(first, decode).DecodeFailed? && TryAttempt(second, decode).Parsed? ==>
              p == TryAttempt(second, decode).payload
    ensures TryAttempt(first, decode).DecodeFailed? && TryAttempt(second, decode).DecodeFailed? ==>
              p == Fallback(TryAttempt(second, decode).error)
  {
    match TryAttempt(first, decode)
    case Parsed(p) => p
    case DecodeFailed(_) =>
      match TryAttempt(second, decode)
      case Parsed(p) => p
      case DecodeFailed(e) => Fallback(e)
  }

  /** Every reply is a decoded model answer or the fallback: never more than two attempts, never a third source. */
  lemma GeminiParseSources(first: Attempt, second: Attempt, decode: string -> Decoded)
    ensures var p := GeminiParse(first, second, decode);
            || TryAttempt(first, decode) == Parsed(p)
            || TryAttempt(second, decode) == Parsed(p)
            || (p.intent == "unknown" && p.items == [])
  {
  }

  /** `route_after_gemini` (lines 255-259): only the order intent goes on to the order node. */
  predicate RoutesToOrder(p: Payload)
  {
    p.intent == "order"
  }

  /** What `process_user_message` hands back to the UI. */
  datatype Result = Result(
    payload: Payload, applied: seq<Pair>, unavailable: seq<OrderEngine.Unavailable>, orderId: Option<int>)

  /** `if oid: parsed['order_id'] = oid`: an id of 0 would be falsy and dropped. */
  function OrderIdKey(oid: Option<int>): (r: Option<int>)
    ensures r.Some? ==> r == oid && r.value != 0
    ensures oid.Some? && oid.value != 0 ==> r == oid
  {
    if oid.Some? && oid.value != 0 then oid else None
  }

  /**
   * `response_text += "\n" + alt` when something was unavailable and the
   * clarification call (an oracle: None when there is no model or it raised)
   * produced text; `alt` is stripped first.
   */
  function WithClarification(text: string, unavailable: seq<OrderEngine.Unavailable>, clarification: Option<string>): (r: string)
    ensures |unavailable| == 0 || clarification.None? ==> r == text
    ensures |unavailable| > 0 && clarification.Some? ==>
              |r| > |text| && r[..|text|] == text && r[|text|] == '\n' && r[|text| + 1..] == JsonBlock.Strip(clarification.value)
  {
    if |unavailable| > 0 && clarification.Some? then text + "\n" + JsonBlock.Strip(clarification.value) else text
  }

  /**
   * One turn through the graph: parse, then for the order intent apply the
   * order to the session and the database. `createdAt` is save_order's clock reading.
   */
  function ProcessUserMessage(
    st: Session.AppState, db: Session.Db, userText: string,
    first: Attempt, second: Attempt, decode: string -> Decoded,
    clarification: Option<string>, createdAt: string): (r: (Session.AppState, Session.Db, Result))
    ensures var p := GeminiParse(first, second, decode);
            !RoutesToOrder(p) ==> r.0 == st && r.1 == db && r.2 == Result(p, [], [], None)
    ensures var p := GeminiParse(first, second, decode);
            RoutesToOrder(p) ==>
              var s := OrderEngine.ScanLines(st.inventory, p.items);
              && r.2.applied == s.applied && r.2.unavailable == s.unavailable && r.0.inventory == s.inventory
              && r.0.chat == st.chat && r.1.chat == db.chat
              && r.2.payload.intent == p.intent && r.2.payload.items == p.items
              && r.2.payload.responseText == WithClarification(p.responseText, s.unavailable, clarification)
              && r.2.orderId == OrderIdKey(Session.PlaceOrder(st, db, p.items, userText, p.responseText, createdAt).2.orderId)
  {
    var p := GeminiParse(first, second, decode);
    if RoutesToOrder(p) then
      var placed := Session.PlaceOrder(st, db, p.items, userText, p.responseText, createdAt);
      var o := placed.2;
      var text := WithClarification(p.responseText, o.unavailable, clarification);
      (placed.0, placed.1, Result(p.(responseText := text), o.applied, o.unavailable, OrderIdKey(o.orderId)))
    else
      (st, db, Result(p, [], [], None))
  }

  /**
   * An order exists after the turn iff the intent was order and some line
   * applied; it then carries the counter's id, the counter moves by one and the
   * log grows by one, and otherwise neither changes.
   */
  lemma OrderCreatedIff(
    st: Session.AppState, db: Session.Db, userText: string,
    first: Attempt, second: Attempt, decode: string -> Decoded,
    clarification: Option<string>, createdAt: string)
    requires Session.Consistent(st)
    ensures var r := ProcessUserMessage(st, db, userText, first, second, decode, clarification, createdAt);
            var p := GeminiParse(first, second, decode);
            var s := OrderEngine.ScanLines(st.inventory, p.items);
            && (r.2.orderId.Some? <==> RoutesToOrder(p) && |s.applied| > 0)
            && (r.2.orderId.Some? ==>
                  && r.2.orderId.value == st.counter && r.0.counter == st.counter + 1
                  && r.0.orders == st.orders + [Order(st.counter, s.applied, Processing, OrderEngine.Amount(s.applied))])
            && (r.2.orderId.None? ==> r.0.counter == st.counter && r.0.orders == st.orders)
  {
  }

  /** When both model calls fail the turn is a no-op on the session and the database. */
  lemma ParseFailureChangesNothing(
    st: Session.AppState, db: Session.Db, userText: string,
    first: Attempt, second: Attempt, decode: string -> Decoded,
    clarification: Option<string>, createdAt: string)
    requires TryAttempt(first, decode).DecodeFailed? && TryAttempt(second, decode).DecodeFailed?
    ensures var r := ProcessUserMessage(st, db, userText, first, second, decode, clarification, createdAt);
            r.0 == st && r.1 == db && r.2.payload.intent == "unknown" && r.2.orderId.None?
  {
  }

  /** A turn keeps a consistent, mirrored session consistent and mirrored. */
  lemma TurnPreservesInvariants(
    st: Session.AppState, db: Session.Db, userText: string,
    first: Attempt, second: Attempt, decode: string -> Decoded,
    clarification: Option<string>, createdAt: string)
    requires Session.Consistent(st) && Session.Mirrored(st, db)
    ensures var r := ProcessUserMessage(st, db, userText, first, second, decode, clarification, createdAt);
            Session.Consistent(r.0) && Session.Mirrored(r.0, r.1)
  {
    var p := GeminiParse(first, second, decode);
    if RoutesToOrder(p) {
      Session.PlaceOrderConsistent(st, db, p.items, userText, p.responseText, createdAt);
      Session.PlaceOrderMirrored(st, db, p.items, userText, p.responseText, createdAt);
    }
  }
}

=== FILE: decimal.dfy ===
/** Decimal rendering of integers, as Python's `str(int)` does inside an f-string. */
module Decimal {
  import opened Records

  predicate IsDigit(c: char)
  {
    '0' <= c <= '9'
  }

  function DigitChar(d: nat): (c: char)
    requires d < 10
    ensures IsDigit(c) && c as int - '0' as int == d
  {
    (('0' as int) + d) as char
  }

  /** Base-ten digits of n, most significant first, without leading zeros. */
  function NatToText(n: nat): (s: string)
    ensures |s| >= 1
    ensures forall i :: 0 <= i < |s| ==> IsDigit(s[i])
    ensures s[0] == '0' ==> n == 0
    decreases n
  {
    if n < 10 then [DigitChar(n)] else NatToText(n / 10) + [DigitChar(n % 10)]
  }

  /** The value of a string of decimal digits. */
  function DigitsValue(s: string): (v: int)
    ensures (forall i :: 0 <= i < |s| ==> IsDigit(s[i])) ==> 0 <= v
  {
    if |s| == 0 then 0 else DigitsValue(s[..|s| - 1]) * 10 + (s[|s| - 1] as int - '0' as int)
  }

  lemma {:induction false} NatTextRoundTrip(n: nat)
    ensures DigitsValue(NatToText(n)) == n
    decreases n
  {
    if n >= 10 {
      var s := NatToText(n);
      assert s[..|s| - 1] == NatToText(n / 10);
      NatTextRoundTrip(n / 10);
    }
  }

  /** `str(n)` for any Python int: a minus sign, then the digits of |n|. */
  function IntToText(n: int): (s: string)
    ensures |s| >= 1
    ensures n < 0 <==> s[0] == '-'
  {
    if n < 0 then "-" + NatToText(-n) else NatToText(n)
  }

  /** Reads back a rendering made by IntToText; None for anything that is not one. */
  function ParseInt(s: string): (r: Option<int>)
    ensures r.Some? && |s| > 0 && s[0] != '-' ==> r.value >= 0
  {
    if |s| > 0 && s[0] == '-' then
      var rest := s[1..];
      if |rest| > 0 && forall i :: 0 <= i < |rest| ==> IsDigit(rest[i]) then Some(-DigitsValue(rest)) else None
    else if |s| > 0 && forall i :: 0 <= i < |s| ==> IsDigit(s[i]) then Some(DigitsValue(s))
    else None
  }

  lemma IntTextRoundTrip(n: int)
    ensures ParseInt(IntToText(n)) == Some(n)
  {
    if n < 0 {
      NegativeTextRoundTrip(n);
    } else {
      NatTextRoundTrip(n);
      DigitsParse(NatToText(n));
    }
  }

  lemma NegativeTextRoundTrip(n: int)
    requires n < 0
    ensures ParseInt(IntToText(n)) == Some(n)
  {
    var m: nat := -n;
    var d := NatToText(m);
    assert IntToText(n) == "-" + d;
    NatTextRoundTrip(m);
    DigitsParse(d);
  }

  /** An all-digit string reads as its value, and with a minus sign in front as the negated value. */
  lemma DigitsParse(d: string)
    requires |d| > 0 && forall i :: 0 <= i < |d| ==> IsDigit(d[i])
    ensures ParseInt(d) == Some(DigitsValue(d))
    ensures ParseInt("-" + d) == Some(-DigitsValue(d))
  {
    assert d[0] != '-';
    SignedDigitsParse(d);
  }

  lemma SignedDigitsParse(d: string)
    requires |d| > 0 && forall i :: 0 <= i < |d| ==> IsDigit(d[i])
    ensures ParseInt("-" + d) == Some(-DigitsValue(d))
  {
    var s := "-" + d;
    assert s[0] == '-';
    assert s[1..] == d;
  }
}

=== FILE: json_block.dfy ===
/**
 * `extract_json_block` (app.py:122-146): pull the JSON object out of a model
 * reply. The reply is stripped, a leading code fence with its language tag and
 * a trailing fence are removed, and the candidate is the span from the first
 * '{' to the last '}', kept only if its brace depth never goes negative and
 * ends at zero.
 */
module JsonBlock {
  import opened Records

  /** Python's `str.isspace`: the characters `str.strip()` removes. */
  predicate IsSpace(c: char)
  {
    var n := c as int;
    || (0x09 <= n <= 0x0D) || (0x1C <= n <= 0x20) || n == 0x85 || n == 0xA0 || n == 0x1680
    || (0x2000 <= n <= 0x200A) || n == 0x2028 || n == 0x2029 || n == 0x202F || n == 0x205F || n == 0x3000
  }

  /** Leading whitespace removed: the longest all-space prefix is dropped. */
  function TrimStart(s: string): (r: string)
    ensures |r| <= |s| && r == s[|s| - |r|..]
    ensures forall k :: 0 <= k < |s| - |r| ==> IsSpace(s[k])
    ensures |r| > 0 ==> !IsSpace(r[0])
  {
    if |s| > 0 && IsSpace(s[0]) then TrimStart(s[1..]) else s
  }

  /** Trailing whitespace removed: the longest all-space suffix is dropped. */
  function TrimEnd(s: string): (r: string)
    ensures |r| <= |s| && r == s[..|r|]
    ensures forall k :: |r| <= k < |s| ==> IsSpace(s[k])
    ensures |r| > 0 ==> !IsSpace(r[|r| - 1])
  {
    if |s| > 0 && IsSpace(s[|s| - 1]) then TrimEnd(s[..|s| - 1]) else s
  }

  /** `str.strip()`. */
  function Strip(s: string): (r: string)
    ensures |r| <= |s|
  {
    TrimEnd(TrimStart(s))
  }

  /** Strip cuts only whitespace, from both ends, and leaves none at either end. */
  lemma StripIsSlice(s: string)
    ensures var r := Strip(s);
            && (|r| > 0 ==> !IsSpace(r[0]) && !IsSpace(r[|r| - 1]))
            && exists a: nat, b: nat :: a <= b <= |s| && r == s[a..b]
                 && (forall k :: 0 <= k < a ==> IsSpace(s[k])) && (forall k :: b <= k < |s| ==> IsSpace(s[k]))
  {
    var t := TrimStart(s);
    var r := TrimEnd(t);
    var a := |s| - |t|;
    assert r == s[a..a + |r|];
    assert |r| > 0 ==> r[0] == t[0];
  }

  /** A string whose ends are not whitespace is its own strip. */
  lemma StripKeeps(s: string)
    requires |s| > 0 && !IsSpace(s[0]) && !IsSpace(s[|s| - 1])
    ensures Strip(s) == s
  {
  }

  predicate IsAlnum(c: char)
  {
    ('a' <= c <= 'z') || ('A' <= c <= 'Z') || ('0' <= c <= '9')
  }

  /** Length of the longest prefix of ASCII letters and digits: what `[a-zA-Z0-9]*` matches. */
  function AlnumRun(s: string): (n: nat)
    ensures n <= |s|
    ensures forall k :: 0 <= k < n ==> IsAlnum(s[k])
    ensures n < |s| ==> !IsAlnum(s[n])
  {
    if |s| > 0 && IsAlnum(s[0]) then 1 + AlnumRun(s[1..]) else 0
  }

  const Fence: string := "```"

  predicate StartsWithFence(s: string)
  {
    |s| >= 3 && s[..3] == Fence
  }

  predicate EndsWithFence(s: string)
  {
    |s| >= 3 && s[|s| - 3..] == Fence
  }

  /** Line 126: an opening fence goes with its `[a-zA-Z0-9]*` tag, and the rest is stripped. */
  function DropOpenFence(s: string): (r: string)
    ensures |r| <= |s|
    ensures !StartsWithFence(s) ==> r == s
  {
    if StartsWithFence(s) then Strip(s[3 + AlnumRun(s[3..])..]) else s
  }

  /** Line 128: a closing fence goes, and the rest is stripped. */
  function DropCloseFence(s: string): (r: string)
    ensures |r| <= |s|
    ensures !EndsWithFence(s) ==> r == s
  {
    if EndsWithFence(s) then Strip(s[..|s| - 3]) else s
  }

  /** Lines 124-128: strip, drop an opening fence and its tag, drop a closing fence, stripping after each. */
  function StripFences(raw: string): (r: string)
    ensures |r| <= |raw|
  {
    DropCloseFence(DropOpenFence(Strip(raw)))
  }

  /** A stripped reply that opens or closes with a fence loses at least the fence's three backticks. */
  lemma StripFencesShortens(raw: string)
    requires StartsWithFence(Strip(raw)) || EndsWithFence(Strip(raw))
    ensures |StripFences(raw)| + 3 <= |Strip(raw)|
  {
  }

  /** i is the position of the first occurrence of c in s. */
  predicate IsFirst(s: string, c: char, i: int)
  {
    0 <= i < |s| && s[i] == c && forall k :: 0 <= k < i ==> s[k] != c
  }

  /** j is the position of the last occurrence of c in s. */
  predicate IsLast(s: string, c: char, j: int)
  {
    0 <= j < |s| && s[j] == c && forall k :: j < k < |s| ==> s[k] != c
  }

  /** `str.find` for one character: the first position, or -1. */
  function Find(s: string, c: char): (r: int)
    ensures r == -1 <==> forall k :: 0 <= k < |s| ==> s[k] != c
    ensures r != -1 ==> IsFirst(s, c, r)
  {
    if |s| == 0 then -1
    else if s[0] == c then 0
    else
      var k := Find(s[1..], c);
      if k == -1 then -1 else k + 1
  }

  /** `str.rfind` for one character: the last position, or -1. */
  function RFind(s: string, c: char): (r: int)
    ensures r == -1 <==> forall k :: 0 <= k < |s| ==> s[k] != c
    ensures r != -1 ==> IsLast(s, c, r)
  {
    if |s| == 0 then -1
    else if s[|s| - 1] == c then |s| - 1
    else RFind(s[..|s| - 1], c)
  }

  /** Net brace depth of a string: opening minus closing braces. */
  function Depth(s: string): int
  {
    if |s| == 0 then 0
    else Depth(s[..|s| - 1]) + (if s[|s| - 1] == '{' then 1 else if s[|s| - 1] == '}' then -1 else 0)
  }

  /** Braces balance: no prefix closes more than it opened, and the whole string closes all it opened. */
  predicate Balanced(s: string)
  {
    (forall k :: 0 <= k <= |s| ==> Depth(s[..k]) >= 0) && Depth(s) == 0
  }

  /** The loop of lines 136-145, from position i with the running depth. */
  function BalanceScan(s: string, i: nat, depth: int): (b: bool)
    requires i <= |s|
    ensures (forall k :: i <= k < |s| ==> s[k] != '{' && s[k] != '}') ==> (b <==> depth == 0)
    decreases |s| - i
  {
    if i == |s| then depth == 0
    else if s[i] == '{' then BalanceScan(s, i + 1, depth + 1)
    else if s[i] == '}' then depth - 1 >= 0 && BalanceScan(s, i + 1, depth - 1)
    else BalanceScan(s, i + 1, depth)
  }

  lemma {:induction false} BalanceScanFrom(s: string, i: nat)
    requires i <= |s|
    requires Depth(s[..i]) >= 0
    ensures BalanceScan(s, i, Depth(s[..i])) <==>
              (forall k :: i < k <= |s| ==> Depth(s[..k]) >= 0) && Depth(s) == 0
    decreases |s| - i
  {
    if i == |s| {
      assert s[..i] == s;
    } else {
      assert s[..i + 1][..i] == s[..i];
      var d := Depth(s[..i + 1]);
      if d >= 0 {
        BalanceScanFrom(s, i + 1);
      }
    }
  }

  /** The early-exit scan accepts exactly the balanced strings. */
  lemma BalanceScanIsBalanced(s: string)
    ensures BalanceScan(s, 0, 0) <==> Balanced(s)
  {
    assert s[..0] == [];
    BalanceScanFrom(s, 0);
  }

  /** The candidate span exists: some '{' at or before the last '}' that follows the first '{'. */
  predicate HasBlock(t: string, i: int, j: int)
  {
    IsFirst(t, '{', i) && IsLast(t, '}', j) && i < j
  }

  /** Only one position can be the first occurrence of a character, and only one the last. */
  lemma PositionsUnique(t: string, i: int, j: int, i': int, j': int)
    requires IsFirst(t, '{', i) && IsFirst(t, '{', i')
    requires IsLast(t, '}', j) && IsLast(t, '}', j')
    ensures i == i' && j == j'
  {
  }

  /** The only candidate span is the one from `find` to `rfind`. */
  lemma OnlySpan(t: string)
    ensures forall i, j :: HasBlock(t, i, j) ==> i == Find(t, '{') && j == RFind(t, '}')
  {
    forall i, j | HasBlock(t, i, j)
      ensures i == Find(t, '{') && j == RFind(t, '}')
    {
      PositionsUnique(t, i, j, Find(t, '{'), RFind(t, '}'));
    }
  }

  /** Lines 130-146 on the cleaned reply: the first-'{'-to-last-'}' span, if it balances. */
  function FindBlock(t: string): (r: Option<string>)
    ensures r.Some? ==> |r.value| >= 2 && r.value[0] == '{' && r.value[|r.value| - 1] == '}' && Balanced(r.value)
  {
    var start := Find(t, '{');
    var end := RFind(t, '}');
    if start == -1 || end == -1 || end < start then None
    else
      var candidate := t[start..end + 1];
      BalanceScanIsBalanced(candidate);
      if BalanceScan(candidate, 0, 0) then Some(candidate) else None
  }

  /**
   * The block is the span from the first '{' to the last '}', and there is a
   * block exactly when that span exists and balances.
   */
  lemma FindBlockSpan(t: string)
    ensures var r := FindBlock(t);
            && (r.Some? <==> exists i, j :: HasBlock(t, i, j) && Balanced(t[i..j + 1]))
            && (r.Some? ==> exists i, j :: HasBlock(t, i, j) && r.value == t[i..j + 1])
  {
    var start := Find(t, '{');
    var end := RFind(t, '}');
    OnlySpan(t);
    if start != -1 && end != -1 && start <= end {
      BalanceScanIsBalanced(t[start..end + 1]);
      assert HasBlock(t, start, end);
    } else {
      assert FindBlock(t).None?;
      assert !exists i, j :: HasBlock(t, i, j);
    }
  }

  /** `extract_json_block(raw)`; None is Python's None. */
  function ExtractJsonBlock(raw: string): (r: Option<string>)
    ensures r.Some? ==> |r.value| >= 2 && r.value[0] == '{' && r.value[|r.value| - 1] == '}' && Balanced(r.value)
  {
    FindBlock(StripFences(raw))
  }

  /** The result is the first-'{'-to-last-'}' span of the fence-stripped reply, when that balances. */
  lemma ExtractJsonBlockSpan(raw: string)
    ensures var t := StripFences(raw);
            var r := ExtractJsonBlock(raw);
            && (r.Some? <==> exists i, j :: HasBlock(t, i, j) && Balanced(t[i..j + 1]))
            && (r.Some? ==> exists i, j :: HasBlock(t, i, j) && r.value == t[i..j + 1])
  {
    FindBlockSpan(StripFences(raw));
  }

  /** The three ways the search fails (lines 132-133): no '{', no '}', or every '}' before every '{'. */
  lemma NoBlockCases(raw: string)
    ensures var t := StripFences(raw);
            ((forall k :: 0 <= k < |t| ==> t[k] != '{')
             || (forall k :: 0 <= k < |t| ==> t[k] != '}')
             || (forall i, j :: 0 <= i < |t| && 0 <= j < |t| && t[i] == '{' && t[j] == '}' ==> j < i))
            ==> ExtractJsonBlock(raw).None?
  {
  }

  /** A balanced object with nothing around it is returned whole. */
  lemma BareObjectExtracted(s: string)
    requires |s| >= 2 && s[0] == '{' && s[|s| - 1] == '}' && Balanced(s)
    ensures ExtractJsonBlock(s) == Some(s)
  {
    StripFencesKeeps(s);
    FindBlockWhole(s);
  }

  /** Text that starts with '{' and ends with '}' has no whitespace or fence to remove. */
  lemma StripFencesKeeps(s: string)
    requires |s| >= 2 && s[0] == '{' && s[|s| - 1] == '}'
    ensures StripFences(s) == s
  {
    StripKeeps(s);
    assert !StartsWithFence(s) by {
      assert |s| >= 3 ==> s[..3][0] == '{';
    }
    assert !EndsWithFence(s) by {
      assert |s| >= 3 ==> s[|s| - 3..][2] == '}';
    }
  }

  /** A balanced object is its own block. */
  lemma FindBlockWhole(s: string)
    requires |s| >= 2 && s[0] == '{' && s[|s| - 1] == '}' && Balanced(s)
    ensures FindBlock(s) == Some(s)
  {
    BalanceScanIsBalanced(s);
    assert s[0..|s| - 1 + 1] == s;
  }

  /**
   * Two objects side by side come back as one span, not as the first object:
   * the span runs to the last '}', and it balances.
   */
  lemma TwoObjectsKeptTogether()
    ensures ExtractJsonBlock("{}{}") == Some("{}{}")
  {
    var s := "{}{}";
    assert BalanceScan(s, 2, 0);
    BalanceScanIsBalanced(s);
    BareObjectExtracted(s);
  }

  /** A balanced object inside a tagged code fence, one object per line, comes out unwrapped. */
  lemma FencedObjectExtracted(tag: string, s: string)
    requires forall k :: 0 <= k < |tag| ==> IsAlnum(tag[k])
    requires |s| >= 2 && s[0] == '{' && s[|s| - 1] == '}' && Balanced(s)
    ensures ExtractJsonBlock(Fence + tag + "\n" + s + "\n" + Fence) == Some(s)
  {
    var inner := s + "\n" + Fence;
    var raw := Fence + tag + "\n" + s + "\n" + Fence;
    assert raw == Fence + (tag + ("\n" + inner));
    OpenFenceRemoved(tag, inner);
    CloseFenceRemoved(s);
    assert StripFences(raw) == s;
    FindBlockWhole(s);
  }

  /** The opening fence and its tag go, along with the newline after them. */
  lemma OpenFenceRemoved(tag: string, inner: string)
    requires forall k :: 0 <= k < |tag| ==> IsAlnum(tag[k])
    requires |inner| >= 4 && inner[0] == '{' && inner[|inner| - 1] == '`'
    ensures var raw := Fence + (tag + ("\n" + inner));
            Strip(raw) == raw && DropOpenFence(raw) == inner
  {
    var raw := Fence + (tag + ("\n" + inner));
    StripKeeps(raw);
    assert raw[..3] == Fence;
    assert raw[3..] == tag + ("\n" + inner);
    AlnumRunPrefix(tag, "\n" + inner);
    assert raw[3 + |tag|..] == "\n" + inner;
    LeadingSpaceStripped('\n', inner);
  }

  /** The closing fence goes, along with the newline before it. */
  lemma CloseFenceRemoved(s: string)
    requires |s| >= 2 && s[0] == '{' && s[|s| - 1] == '}'
    ensures var inner := s + "\n" + Fence;
            DropCloseFence(inner) == s
  {
    var inner := s + "\n" + Fence;
    assert inner[|inner| - 3..] == Fence;
    assert inner[..|inner| - 3] == s + "\n";
    TrailingSpaceStripped(s, '\n');
  }

  lemma LeadingSpaceStripped(c: char, x: string)
    requires IsSpace(c) && |x| > 0 && !IsSpace(x[0]) && !IsSpace(x[|x| - 1])
    ensures Strip([c] + x) == x
  {
    assert ([c] + x)[1..] == x;
    assert TrimStart([c] + x) == x;
  }

  lemma TrailingSpaceStripped(x: string, c: char)
    requires IsSpace(c) && |x| > 0 && !IsSpace(x[0]) && !IsSpace(x[|x| - 1])
    ensures Strip(x + [c]) == x
  {
    assert (x + [c])[..|x|] == x;
    assert TrimStart(x + [c]) == x + [c];
    assert TrimEnd(x + [c]) == x;
  }

  lemma {:induction false} AlnumRunPrefix(tag: string, rest: string)
    requires forall k :: 0 <= k < |tag| ==> IsAlnum(tag[k])
    requires |rest| > 0 && !IsAlnum(rest[0])
    ensures AlnumRun(tag + rest) == |tag|
    decreases |tag|
  {
    if |tag| == 0 {
      assert tag + rest == rest;
    } else {
      assert (tag + rest)[1..] == tag[1..] + rest;
      AlnumRunPrefix(tag[1..], rest);
    }
  }
}

=== FILE: lifecycle.dfy ===
/**
 * The delivery lifecycle: `update_statuses` in app.py (lines 193-201).
 *
 * One pass walks the in-memory order log, moves every order one step along
 * processing -> out-for-delivery -> delivered, and writes the new status
 * through to the `orders` table for exactly the orders that moved.
 */
module Lifecycle {
  import opened Records
  import OrderStore

  /** One step of the lifecycle; delivered is terminal. */
  function Advance(s: Status): (t: Status)
    ensures s != Delivered ==> Rank(t) == Rank(s) + 1
    ensures s == Delivered ==> t == Delivered
    ensures Rank(s) <= Rank(t)
  {
    match s
    case Processing => OutForDelivery
    case OutForDelivery => Delivered
    case Delivered => Delivered
  }

  /** Whatever the starting status, two steps reach delivered. */
  lemma AdvanceTwiceDelivers(s: Status)
    ensures Advance(Advance(s)) == Delivered
  {
  }

  /** An `update_order_status(id, status)` call made by the pass. */
  datatype Write = Write(id: int, status: Status)

  /** The log after one pass: every order one step further, nothing but the status touched. */
  function AdvanceAll(log: seq<Order>): (r: seq<Order>)
    ensures |r| == |log|
    ensures forall i :: 0 <= i < |log| ==>
              && r[i].id == log[i].id && r[i].items == log[i].items && r[i].total == log[i].total
              && (log[i].status == Delivered ==> r[i].status == Delivered)
              && (log[i].status != Delivered ==> Rank(r[i].status) == Rank(log[i].status) + 1)
  {
    seq(|log|, i requires 0 <= i < |log| => log[i].(status := Advance(log[i].status)))
  }

  /** The write-throughs a pass over `log` issues, in log order: one per order not yet delivered. */
  function ChangedWrites(log: seq<Order>): (w: seq<Write>)
    ensures |w| <= |log|
    ensures forall k :: 0 <= k < |w| ==> w[k].status != Processing
  {
    if |log| == 0 then []
    else
      var o := log[|log| - 1];
      ChangedWrites(log[..|log| - 1]) + (if o.status != Delivered then [Write(o.id, Advance(o.status))] else [])
  }

  /** The table after a sequence of status UPDATEs, applied in order. */
  function ApplyWrites(rows: seq<OrderStore.OrderRow>, ws: seq<Write>): (r: seq<OrderStore.OrderRow>)
    ensures |r| == |rows|
    ensures forall i :: 0 <= i < |rows| ==> r[i] == rows[i].(status := r[i].status)
    ensures forall i :: 0 <= i < |rows| && (forall k :: 0 <= k < |ws| ==> ws[k].id != rows[i].id) ==> r[i] == rows[i]
  {
    if |ws| == 0 then rows
    else
      var w := ws[|ws| - 1];
      OrderStore.UpdateOrderStatus(ApplyWrites(rows, ws[..|ws| - 1]), w.id, w.status)
  }

  /** The session log mirrors the table: loading the table gives back the log, ids unique. */
  predicate Mirrors(log: seq<Order>, rows: seq<OrderStore.OrderRow>)
  {
    OrderStore.UniqueIds(rows) && OrderStore.LoadOrders(rows) == log
  }

  /** In a log with distinct ids, updating by the id of entry i changes entry i alone. */
  lemma SetStatusAt(log: seq<Order>, i: nat, status: Status)
    requires i < |log|
    requires forall j :: 0 <= j < |log| && j != i ==> log[j].id != log[i].id
    ensures OrderStore.SetStatus(log, log[i].id, status) == log[i := log[i].(status := status)]
  {
  }

  /** The writes of a prefix one entry longer: the shorter prefix's writes, then entry i's if it moves. */
  lemma ChangedWritesSnoc(log: seq<Order>, i: nat)
    requires i < |log|
    ensures ChangedWrites(log[..i + 1]) ==
            ChangedWrites(log[..i]) + (if log[i].status != Delivered then [Write(log[i].id, Advance(log[i].status))] else [])
  {
    assert log[..i + 1][..i] == log[..i];
  }

  /** The log part-way through a pass: entries before i advanced, the rest as they were. */
  function Partial(log: seq<Order>, i: nat): (r: seq<Order>)
    ensures |r| == |log|
  {
    seq(|log|, j requires 0 <= j < |log| => if j < i then log[j].(status := Advance(log[j].status)) else log[j])
  }

  /** Advancing entry i moves the pass one entry on. */
  lemma PartialStep(log: seq<Order>, i: nat)
    requires i < |log|
    ensures Partial(log, i)[i] == log[i]
    ensures Partial(log, i + 1) == Partial(log, i)[i := log[i].(status := Advance(log[i].status))]
  {
  }

  /** Before the first entry the pass has changed nothing. */
  lemma PartialZero(log: seq<Order>)
    ensures Partial(log, 0) == log
    ensures ChangedWrites(log[..0]) == []
  {
    assert log[..0] == [];
  }

  /** After the last entry the pass is the full advance, and the prefix is the whole log. */
  lemma PartialFull(log: seq<Order>)
    ensures Partial(log, |log|) == AdvanceAll(log)
    ensures log[..|log|] == log
  {
  }

  /** Writing one order's new status through keeps the table mirroring the log. */
  lemma MirrorStep(log: seq<Order>, rows: seq<OrderStore.OrderRow>, i: nat, status: Status)
    requires Mirrors(log, rows) && i < |log|
    ensures Mirrors(log[i := log[i].(status := status)], OrderStore.UpdateOrderStatus(rows, log[i].id, status))
  {
    OrderStore.LoadAfterStatusUpdate(rows, log[i].id, status);
    assert AscendingIds(log);
    SetStatusAt(log, i, status);
    OrderStore.UpdateOrderStatusFrame(rows, log[i].id, status);
  }

  /**
   * A pass stopped after entry i keeps a mirroring table mirroring: the table
   * with the first i entries' writes applied loads back as the log with the
   * first i entries advanced.
   */
  lemma {:induction false} MirrorsPartial(log: seq<Order>, rows: seq<OrderStore.OrderRow>, i: nat)
    requires Mirrors(log, rows) && i <= |log|
    ensures Mirrors(Partial(log, i), ApplyWrites(rows, ChangedWrites(log[..i])))
    decreases i
  {
    if i == 0 {
      PartialZero(log);
    } else {
      var k := i - 1;
      MirrorsPartial(log, rows, k);
      PassStep(log, rows, k);
      if Advance(log[k].status) != log[k].status {
        MirrorStep(Partial(log, k), ApplyWrites(rows, ChangedWrites(log[..k])), k, Advance(log[k].status));
      }
    }
  }

  /** One iteration of the pass: what entry i contributes to the log, the writes and the table. */
  lemma PassStep(log: seq<Order>, rows: seq<OrderStore.OrderRow>, i: nat)
    requires i < |log|
    ensures Partial(log, i)[i] == log[i]
    ensures var after := Advance(log[i].status);
            var writes := ChangedWrites(log[..i]);
            if after == log[i].status then
              Partial(log, i + 1) == Partial(log, i) && ChangedWrites(log[..i + 1]) == writes
            else
              && Partial(log, i + 1) == Partial(log, i)[i := log[i].(status := after)]
              && ChangedWrites(log[..i + 1]) == writes + [Write(log[i].id, after)]
              && ApplyWrites(rows, writes + [Write(log[i].id, after)]) ==
                 OrderStore.UpdateOrderStatus(ApplyWrites(rows, writes), log[i].id, after)
  {
    PartialStep(log, i);
    ChangedWritesSnoc(log, i);
    var after := Advance(log[i].status);
    if after == log[i].status {
      assert log[i].(status := after) == log[i];
    } else {
      var ws := ChangedWrites(log[..i]) + [Write(log[i].id, after)];
      assert ws[..|ws| - 1] == ChangedWrites(log[..i]);
    }
  }

  /**
   * `update_statuses`: the loop over the log, advancing each order in place and
   * writing the new status through whenever it changed. The log it produces is
   * the one-step advance of the whole log, the writes are exactly the orders that
   * moved, and a table that mirrored the log before mirrors it after.
   */
  method UpdateStatuses(log: seq<Order>, rows: seq<OrderStore.OrderRow>)
    returns (log': seq<Order>, rows': seq<OrderStore.OrderRow>, writes: seq<Write>)
    ensures log' == AdvanceAll(log)
    ensures writes == ChangedWrites(log)
    ensures rows' == ApplyWrites(rows, writes)
    ensures Mirrors(log, rows) ==> Mirrors(log', rows')
  {
    log' := log;
    rows' := rows;
    writes := [];
    var n := |log|;
    var i := 0;
    PartialZero(log);
    while i < n
      invariant 0 <= i <= n
      invariant log' == Partial(log, i)
      invariant writes == ChangedWrites(log[..i])
      invariant rows' == ApplyWrites(rows, writes)
    {
      PassStep(log, rows, i);
      var o := log'[i];
      var after := Advance(o.status);
      if after != o.status {
        log' := log'[i := o.(status := after)];
        writes := writes + [Write(o.id, after)];
        rows' := OrderStore.UpdateOrderStatus(rows', o.id, after);
      }
      i := i + 1;
    }
    PartialFull(log);
    if Mirrors(log, rows) {
      MirrorsPartial(log, rows, n);
    }
  }

  /** Two passes deliver every order. */
  lemma TwoPassesDeliverAll(log: seq<Order>)
    ensures forall i :: 0 <= i < |log| ==> AdvanceAll(AdvanceAll(log))[i].status == Delivered
  {
    forall i | 0 <= i < |log|
      ensures AdvanceAll(AdvanceAll(log))[i].status == Delivered
    {
      AdvanceTwiceDelivers(log[i].status);
    }
  }

  lemma {:induction false} NoWritesWhenDelivered(log: seq<Order>)
    requires forall i :: 0 <= i < |log| ==> log[i].status == Delivered
    ensures ChangedWrites(log) == []
    decreases |log|
  {
    if |log| > 0 {
      NoWritesWhenDelivered(log[..|log| - 1]);
    }
  }

  /** Once every order is delivered a pass changes nothing and writes nothing. */
  lemma PassIsIdleWhenDelivered(log: seq<Order>)
    requires forall i :: 0 <= i < |log| ==> log[i].status == Delivered
    ensures AdvanceAll(log) == log
    ensures ChangedWrites(log) == []
  {
    NoWritesWhenDelivered(log);
  }

  /** After two passes, any further pass is idle: the lifecycle reaches a fixed point. */
  lemma ThirdPassIsIdle(log: seq<Order>)
    ensures var twice := AdvanceAll(AdvanceAll(log));
            AdvanceAll(twice) == twice && ChangedWrites(twice) == []
  {
    TwoPassesDeliverAll(log);
    PassIsIdleWhenDelivered(AdvanceAll(AdvanceAll(log)));
  }

  /** Entry i of the log moves in a pass, and w is the write that records it. */
  predicate MovedAt(log: seq<Order>, i: int, w: Write)
  {
    0 <= i < |log| && log[i].status != Delivered && w == Write(log[i].id, Advance(log[i].status))
  }

  lemma {:induction false} WritesAreMoves(log: seq<Order>)
    ensures forall w :: w in ChangedWrites(log) <==> exists i :: MovedAt(log, i, w)
    decreases |log|
  {
    if |log| > 0 {
      var init := log[..|log| - 1];
      var k := |log| - 1;
      WritesAreMoves(init);
      assert forall i, w :: 0 <= i < k ==> (MovedAt(init, i, w) <==> MovedAt(log, i, w));
      forall w
        ensures w in ChangedWrites(log) <==> exists i :: MovedAt(log, i, w)
      {
        if w in ChangedWrites(log) && w !in ChangedWrites(init) {
          assert MovedAt(log, k, w);
        }
        if exists i :: MovedAt(log, i, w) {
          var i :| MovedAt(log, i, w);
          if i < k {
            assert MovedAt(init, i, w);
          }
        }
      }
    }
  }

  /**
   * Write-through happens for exactly the orders whose status changed, each with
   * its new status: a write is issued for entry i iff the pass changed entry i.
   */
  lemma {:induction false} WritesAreExactlyChanges(log: seq<Order>)
    ensures forall w :: w in ChangedWrites(log) <==>
              exists i :: 0 <= i < |log| && AdvanceAll(log)[i] != log[i] && w == Write(log[i].id, AdvanceAll(log)[i].status)
  {
    WritesAreMoves(log);
    var adv := AdvanceAll(log);
    forall i, w | 0 <= i < |log|
      ensures MovedAt(log, i, w) <==> adv[i] != log[i] && w == Write(log[i].id, adv[i].status)
    {
      assert adv[i] == log[i].(status := Advance(log[i].status));
    }
    forall w
      ensures w in ChangedWrites(log) <==>
              exists i :: 0 <= i < |log| && adv[i] != log[i] && w == Write(log[i].id, adv[i].status)
    {
      if w in ChangedWrites(log) {
        var i :| MovedAt(log, i, w);
        assert 0 <= i < |log| && adv[i] != log[i] && w == Write(log[i].id, adv[i].status);
      }
      if exists i :: 0 <= i < |log| && adv[i] != log[i] && w == Write(log[i].id, adv[i].status) {
        var i :| 0 <= i < |log| && adv[i] != log[i] && w == Write(log[i].id, adv[i].status);
        assert MovedAt(log, i, w);
      }
    }
  }
}

=== FILE: order_engine.dfy ===
/**
 * The order engine: `apply_order` in app.py (lines 165-191).
 *
 * The requested lines are scanned left to right against the current stock. A
 * line for an unknown name or for more than is left is rejected whole; any
 * other line takes its quantity out of stock at once, so later lines see the
 * decrement. An order, with a fresh id, exists only if some line was applied.
 */
module OrderEngine {
  import opened Records
  import Catalog
  import Decimal
  import OrderStore
  import Reconcile

  /** The `qty` field of a requested item: missing or null, or a JSON integer. */
  datatype Qty = Absent | Given(n: int)

  /** One entry of the resolver's `items` list. */
  datatype RequestLine = RequestLine(name: string, qty: Qty)

  datatype Reason = NotFound | OnlyLeft(remaining: int)

  /** An entry of the `unavailable` list: {name, reason}. */
  datatype Unavailable = Unavailable(name: string, reason: Reason)

  /** `int(it.get('qty', 1) or 1)`: missing, null and 0 all mean one unit. */
  function EffectiveQty(q: Qty): (n: int)
    ensures n != 0
    ensures q.Given? && q.n != 0 ==> n == q.n
    ensures n >= 1 <==> q.Absent? || q.n >= 0
  {
    match q
    case Absent => 1
    case Given(v) => if v == 0 then 1 else v
  }

  /** The reason string shown to the user: "not_found" or f"only {N} left". */
  function ReasonText(r: Reason): (s: string)
    ensures r.OnlyLeft? ==> |s| > 10 && s[..5] == "only " && s[|s| - 5..] == " left"
  {
    match r
    case NotFound => "not_found"
    case OnlyLeft(n) => "only " + Decimal.IntToText(n) + " left"
  }

  /** Reads a reason string back. */
  function ParseReason(s: string): Option<Reason>
  {
    if s == "not_found" then Some(NotFound)
    else if |s| > 10 && s[..5] == "only " && s[|s| - 5..] == " left" then
      match Decimal.ParseInt(s[5..|s| - 5])
      case Some(n) => Some(OnlyLeft(n))
      case None => None
    else None
  }

  /** The reason string names its reason unambiguously, and for stock shortfalls the exact count left. */
  lemma ReasonTextRoundTrip(r: Reason)
    ensures ParseReason(ReasonText(r)) == Some(r)
  {
    match r
    case NotFound =>
    case OnlyLeft(n) =>
      var s := ReasonText(r);
      Decimal.IntTextRoundTrip(n);
      assert s[5..|s| - 5] == Decimal.IntToText(n);
      assert s != "not_found" by {
        assert |"not_found"| == 9;
      }
  }

  /** The loop state of `apply_order` after some prefix of the request. */
  datatype Scan = Scan(
    inventory: map<string, int>, applied: seq<Pair>, details: seq<LineItem>,
    unavailable: seq<Unavailable>, total: int)

  /** One iteration of the loop over the requested lines. */
  function Step(s: Scan, line: RequestLine): (r: Scan)
    ensures r.inventory.Keys == s.inventory.Keys
    ensures line.name !in s.inventory ==>
              r == s.(unavailable := s.unavailable + [Unavailable(line.name, NotFound)])
    ensures line.name in s.inventory && s.inventory[line.name] < EffectiveQty(line.qty) ==>
              r == s.(unavailable := s.unavailable + [Unavailable(line.name, OnlyLeft(s.inventory[line.name]))])
    ensures line.name in s.inventory && s.inventory[line.name] >= EffectiveQty(line.qty) ==>
              var q := EffectiveQty(line.qty);
              && r.inventory[line.name] == s.inventory[line.name] - q
              && (forall k :: k in s.inventory && k != line.name ==> r.inventory[k] == s.inventory[k])
              && r.applied == s.applied + [(line.name, q)]
              && r.unavailable == s.unavailable
  {
    var name := line.name;
    var qty := EffectiveQty(line.qty);
    if name !in s.inventory then
      s.(unavailable := s.unavailable + [Unavailable(name, NotFound)])
    else if s.inventory[name] < qty then
      s.(unavailable := s.unavailable + [Unavailable(name, OnlyLeft(s.inventory[name]))])
    else
      var unitPrice := Catalog.PriceForItem(name);
      var lineTotal := unitPrice * qty;
      Scan(s.inventory[name := s.inventory[name] - qty],
           s.applied + [(name, qty)],
           s.details + [LineItem(name, qty, unitPrice, lineTotal)],
           s.unavailable,
           s.total + lineTotal)
  }

  /** The loop over all requested lines, starting from the given stock. */
  function ScanLines(inv: map<string, int>, lines: seq<RequestLine>): (r: Scan)
    ensures r.inventory.Keys == inv.Keys
    ensures |r.applied| + |r.unavailable| == |lines|
    ensures Projection(r.details) == r.applied
    ensures forall p :: p in r.applied ==> p.0 in inv
  {
    if |lines| == 0 then Scan(inv, [], [], [], 0)
    else Step(ScanLines(inv, lines[..|lines| - 1]), lines[|lines| - 1])
  }

  /** The price of a list of pairs at the catalog's unit prices. */
  function Amount(ps: seq<Pair>): int
  {
    if |ps| == 0 then 0 else Amount(ps[..|ps| - 1]) + Catalog.PriceForItem(ps[|ps| - 1].0) * ps[|ps| - 1].1
  }

  /** (name, effective qty) of every requested line, in request order. */
  function Requested(lines: seq<RequestLine>): seq<Pair>
  {
    seq(|lines|, i requires 0 <= i < |lines| => (lines[i].name, EffectiveQty(lines[i].qty)))
  }

  /** a is b with some elements dropped, the rest kept in order. */
  predicate IsSubsequence<T(==)>(a: seq<T>, b: seq<T>)
    decreases |b|
  {
    if |a| == 0 then true
    else if |b| == 0 then false
    else if a[|a| - 1] == b[|b| - 1] then IsSubsequence(a[..|a| - 1], b[..|b| - 1])
    else IsSubsequence(a, b[..|b| - 1])
  }

  lemma {:induction false} SubsequenceExtend<T>(a: seq<T>, b: seq<T>, x: T)
    requires IsSubsequence(a, b)
    ensures IsSubsequence(a, b + [x])
    decreases |b|, 1
  {
    var b' := b + [x];
    assert b'[..|b'| - 1] == b;
    if |a| > 0 && a[|a| - 1] == x {
      SubsequenceShorten(a, b);
    }
  }

  lemma {:induction false} SubsequenceShorten<T>(a: seq<T>, b: seq<T>)
    requires |a| > 0
    requires IsSubsequence(a, b)
    ensures IsSubsequence(a[..|a| - 1], b)
    decreases |b|, 0
  {
    var a' := a[..|a| - 1];
    var b' := b[..|b| - 1];
    assert b' + [b[|b| - 1]] == b;
    if a[|a| - 1] != b[|b| - 1] {
      SubsequenceShorten(a, b');
    }
    SubsequenceExtend(a', b', b[|b| - 1]);
  }

  /** Each item's stock drops by exactly the quantity applied for it; nothing else moves. */
  lemma {:induction false} ScanStock(inv: map<string, int>, lines: seq<RequestLine>)
    ensures var r := ScanLines(inv, lines);
            forall k :: k in inv ==> r.inventory[k] == inv[k] - Reconcile.QtyFor(k, r.applied)
    decreases |lines|
  {
    if |lines| > 0 {
      var init := lines[..|lines| - 1];
      ScanStock(inv, init);
      StepStock(inv, ScanLines(inv, init), lines[|lines| - 1]);
    }
  }

  /** A step keeps every item's stock at its start value less what has been applied for it. */
  lemma StepStock(inv: map<string, int>, s: Scan, line: RequestLine)
    requires s.inventory.Keys == inv.Keys
    requires forall k :: k in inv ==> s.inventory[k] == inv[k] - Reconcile.QtyFor(k, s.applied)
    ensures var r := Step(s, line);
            forall k :: k in inv ==> r.inventory[k] == inv[k] - Reconcile.QtyFor(k, r.applied)
  {
    var r := Step(s, line);
    var q := EffectiveQty(line.qty);
    if line.name in s.inventory && s.inventory[line.name] >= q {
      assert r.applied[..|r.applied| - 1] == s.applied;
      forall k | k in inv
        ensures r.inventory[k] == inv[k] - Reconcile.QtyFor(k, r.applied)
      {
        assert Reconcile.QtyFor(k, r.applied) == Reconcile.QtyFor(k, s.applied) + (if line.name == k then q else 0);
      }
    }
  }

  /** Every line item carries its catalog unit price and the line total is that price times the quantity. */
  predicate PricedLines(details: seq<LineItem>)
  {
    forall i :: 0 <= i < |details| ==>
      details[i].unitPrice == Catalog.PriceForItem(details[i].name)
      && details[i].lineTotal == details[i].unitPrice * details[i].qty
  }

  /** The order total is the catalog price of the applied pairs; each line is priced at its unit price. */
  lemma {:induction false} ScanTotal(inv: map<string, int>, lines: seq<RequestLine>)
    ensures var r := ScanLines(inv, lines);
            r.total == Amount(r.applied) && PricedLines(r.details)
    decreases |lines|
  {
    if |lines| > 0 {
      var init := lines[..|lines| - 1];
      ScanTotal(inv, init);
      StepTotal(ScanLines(inv, init), lines[|lines| - 1]);
    }
  }

  /** A step keeps the running total equal to the price of the applied pairs, and every line priced. */
  lemma StepTotal(s: Scan, line: RequestLine)
    requires s.total == Amount(s.applied) && PricedLines(s.details)
    ensures Step(s, line).total == Amount(Step(s, line).applied) && PricedLines(Step(s, line).details)
  {
    var r := Step(s, line);
    if r.applied != s.applied {
      assert r.applied[..|r.applied| - 1] == s.applied;
    }
  }

  /** The applied pairs are requested (name, qty) pairs, kept in request order. */
  lemma {:induction false} ScanOrderPreserved(inv: map<string, int>, lines: seq<RequestLine>)
    ensures IsSubsequence(ScanLines(inv, lines).applied, Requested(lines))
    decreases |lines|
  {
    if |lines| > 0 {
      var init := lines[..|lines| - 1];
      var line := lines[|lines| - 1];
      ScanOrderPreserved(inv, init);
      assert Requested(lines) == Requested(init) + [(line.name, EffectiveQty(line.qty))];
      StepSubsequence(ScanLines(inv, init), line, Requested(init));
    }
  }

  /** A step either applies the line, as the next requested pair, or applies nothing. */
  lemma StepSubsequence(s: Scan, line: RequestLine, req: seq<Pair>)
    requires IsSubsequence(s.applied, req)
    ensures IsSubsequence(Step(s, line).applied, req + [(line.name, EffectiveQty(line.qty))])
  {
    var r := Step(s, line);
    var x := (line.name, EffectiveQty(line.qty));
    var req' := req + [x];
    assert req'[..|req'| - 1] == req;
    if r.applied == s.applied {
      SubsequenceExtend(s.applied, req, x);
    } else {
      assert r.applied == s.applied + [x];
      assert r.applied[..|r.applied| - 1] == s.applied;
    }
  }

  /** Stock never goes negative: a line is applied only when enough is left. */
  lemma {:induction false} ScanKeepsNonNegative(inv: map<string, int>, lines: seq<RequestLine>)
    requires NonNegative(inv)
    ensures NonNegative(ScanLines(inv, lines).inventory)
    decreases |lines|
  {
    if |lines| > 0 {
      ScanKeepsNonNegative(inv, lines[..|lines| - 1]);
    }
  }

  /** No line asks for a negative quantity. */
  predicate NoNegativeQty(lines: seq<RequestLine>)
  {
    forall l :: l in lines ==> EffectiveQty(l.qty) >= 1
  }

  /** For positive quantities stock stays within [0, what it was before the request]. */
  lemma {:induction false} ScanBounds(inv: map<string, int>, lines: seq<RequestLine>)
    requires NonNegative(inv)
    requires NoNegativeQty(lines)
    ensures var r := ScanLines(inv, lines);
            forall k :: k in inv ==> 0 <= r.inventory[k] <= inv[k]
    decreases |lines|
  {
    if |lines| > 0 {
      var init := lines[..|lines| - 1];
      assert forall l :: l in init ==> l in lines;
      assert lines[|lines| - 1] in lines;
      ScanBounds(inv, init);
    }
  }

  /** The applied pairs of a scan, replayed by the reconciliation fold, give the scan's stock. */
  lemma {:induction false} ScanIsFold(inv: map<string, int>, lines: seq<RequestLine>)
    ensures ScanLines(inv, lines).inventory == Reconcile.FoldPairs(inv, ScanLines(inv, lines).applied)
    decreases |lines|
  {
    if |lines| > 0 {
      var init := lines[..|lines| - 1];
      ScanIsFold(inv, init);
      StepIsFold(inv, ScanLines(inv, init), lines[|lines| - 1]);
    }
  }

  /** A step keeps the running stock equal to the fold of the applied pairs. */
  lemma StepIsFold(inv: map<string, int>, s: Scan, line: RequestLine)
    requires s.inventory == Reconcile.FoldPairs(inv, s.applied)
    ensures Step(s, line).inventory == Reconcile.FoldPairs(inv, Step(s, line).applied)
  {
    var r := Step(s, line);
    var q := EffectiveQty(line.qty);
    if line.name in s.inventory && s.inventory[line.name] >= q {
      assert r.applied[..|r.applied| - 1] == s.applied;
      assert r.inventory == s.inventory[line.name := s.inventory[line.name] - q];
    }
  }

  /** Everything `apply_order` changes or returns. */
  datatype Outcome = Outcome(
    inventory: map<string, int>, log: seq<Order>, counter: int, rows: seq<OrderStore.OrderRow>,
    applied: seq<Pair>, unavailable: seq<Unavailable>, orderId: Option<int>)

  /**
   * `apply_order`: scan the lines; if any applied, take the counter as the new
   * order's id, append the order with status processing to the log and save it
   * with `save_order`. `createdAt` is the clock reading save_order stores.
   */
  function ApplyOrder(
    inv: map<string, int>, log: seq<Order>, counter: int, rows: seq<OrderStore.OrderRow>,
    lines: seq<RequestLine>, rawRequest: string, responseText: string, createdAt: string): (r: Outcome)
    ensures var s := ScanLines(inv, lines);
            r.applied == s.applied && r.unavailable == s.unavailable && r.inventory == s.inventory
    ensures r.inventory.Keys == inv.Keys
    ensures r.orderId.Some? <==> |r.applied| > 0
    ensures r.orderId.Some? ==>
              && r.orderId.value == counter
              && r.counter == counter + 1
              && r.log == log + [Order(counter, r.applied, Processing, Amount(r.applied))]
              && OrderStore.CountId(r.rows, counter) == 1
    ensures r.orderId.None? ==> r.counter == counter && r.log == log && r.rows == rows && r.inventory == inv
    ensures forall k :: k in inv ==> r.inventory[k] == inv[k] - Reconcile.QtyFor(k, r.applied)
  {
    var s := ScanLines(inv, lines);
    ScanStock(inv, lines);
    ScanTotal(inv, lines);
    if |s.applied| > 0 then
      var rows' := OrderStore.SaveOrder(rows, counter, Processing, s.details, rawRequest, responseText, s.total, createdAt);
      Outcome(s.inventory, log + [Order(counter, s.applied, Processing, s.total)], counter + 1, rows',
              s.applied, s.unavailable, Some(counter))
    else
      assert s.inventory == inv;
      Outcome(s.inventory, log, counter, rows, s.applied, s.unavailable, None)
  }

  /** The row `save_order` writes for a created order carries its line items, priced. */
  lemma ApplyOrderSavesRow(
    inv: map<string, int>, log: seq<Order>, counter: int, rows: seq<OrderStore.OrderRow>,
    lines: seq<RequestLine>, rawRequest: string, responseText: string, createdAt: string)
    ensures var r := ApplyOrder(inv, log, counter, rows, lines, rawRequest, responseText, createdAt);
            var s := ScanLines(inv, lines);
            r.orderId.Some? ==>
              r.rows == OrderStore.SaveOrder(rows, counter, Processing, s.details, rawRequest, responseText,
                                             Amount(s.applied), createdAt)
  {
    ScanTotal(inv, lines);
  }

  /** A one-line request is one step of the loop. */
  lemma OneLine(inv: map<string, int>, line: RequestLine)
    ensures ScanLines(inv, [line]) == Step(Scan(inv, [], [], [], 0), line)
  {
    assert [line][..0] == [];
  }

  /** A single line with enough stock creates one order holding just that line. */
  lemma SingleLineApplied(
    inv: map<string, int>, log: seq<Order>, counter: int, rows: seq<OrderStore.OrderRow>, line: RequestLine)
    requires line.name in inv && inv[line.name] >= EffectiveQty(line.qty)
    ensures var q := EffectiveQty(line.qty);
            var r := ApplyOrder(inv, log, counter, rows, [line], "", "", "");
            && r.inventory == inv[line.name := inv[line.name] - q]
            && r.orderId == Some(counter) && r.counter == counter + 1 && r.unavailable == []
            && r.log == log + [Order(counter, [(line.name, q)], Processing, Catalog.PriceForItem(line.name) * q)]
  {
    OneLine(inv, line);
  }

  /** A single line the stock cannot cover is reported with the stock left, and changes nothing. */
  lemma SingleLineShort(
    inv: map<string, int>, log: seq<Order>, counter: int, rows: seq<OrderStore.OrderRow>, line: RequestLine)
    requires line.name in inv && inv[line.name] < EffectiveQty(line.qty)
    ensures var r := ApplyOrder(inv, log, counter, rows, [line], "", "", "");
            && r.unavailable == [Unavailable(line.name, OnlyLeft(inv[line.name]))]
            && r.orderId == None && r.inventory == inv && r.log == log
  {
    OneLine(inv, line);
  }

  /** A negative quantity passes the stock check and puts stock back: milk goes from 10 to 15. */
  lemma NegativeQtyRaisesStock()
    ensures var r := ApplyOrder(Catalog.OriginalStock(), [], 1, [], [RequestLine("milk", Given(-5))], "", "", "");
            && r.inventory["milk"] == 15 > Catalog.OriginalStock()["milk"]
            && r.orderId == Some(1)
            && r.log[0].total == -125
  {
    SingleLineApplied(Catalog.OriginalStock(), [], 1, [], RequestLine("milk", Given(-5)));
  }

  /** Milk 10 @25: ordering 3 leaves 7, bread untouched, one order of 75 in processing. */
  lemma ScenarioA()
    ensures var r := ApplyOrder(Catalog.OriginalStock(), [], 1, [], [RequestLine("milk", Given(3))], "", "", "");
            && r.inventory["milk"] == 7 && r.inventory["bread"] == 5
            && r.log == [Order(1, [("milk", 3)], Processing, 75)]
            && r.orderId == Some(1)
  {
    var inv := Catalog.OriginalStock();
    var line := RequestLine("milk", Given(3));
    assert EffectiveQty(line.qty) == 3 && inv["milk"] == 10 && inv["bread"] == 5;
    SingleLineApplied(inv, [], 1, [], line);
    var o := Order(1, [("milk", 3)], Processing, Catalog.PriceForItem("milk") * 3);
    assert o == Order(1, [("milk", 3)], Processing, 75);
    assert [] + [o] == [o];
  }

  /** Bread 5: asking for 10 is rejected as "only 5 left" and nothing changes. */
  lemma ScenarioB()
    ensures var r := ApplyOrder(Catalog.OriginalStock(), [], 1, [], [RequestLine("bread", Given(10))], "", "", "");
            && r.unavailable == [Unavailable("bread", OnlyLeft(5))]
            && ReasonText(r.unavailable[0].reason) == "only 5 left"
            && r.orderId == None && r.inventory == Catalog.OriginalStock() && r.log == []
  {
    SingleLineShort(Catalog.OriginalStock(), [], 1, [], RequestLine("bread", Given(10)));
    assert Decimal.IntToText(5) == "5";
  }

  /** Two orders of 2 milk in a row: the second sees the first's decrement (10, 8, 6). */
  lemma ScenarioC()
    ensures var lines := [RequestLine("milk", Given(2))];
            var r1 := ApplyOrder(Catalog.OriginalStock(), [], 1, [], lines, "", "", "");
            var r2 := ApplyOrder(r1.inventory, r1.log, r1.counter, r1.rows, lines, "", "", "");
            r1.inventory["milk"] == 8 && r2.inventory["milk"] == 6 && r2.orderId == Some(2)
  {
    var line := RequestLine("milk", Given(2));
    SingleLineApplied(Catalog.OriginalStock(), [], 1, [], line);
    var r1 := ApplyOrder(Catalog.OriginalStock(), [], 1, [], [line], "", "", "");
    SingleLineApplied(r1.inventory, r1.log, r1.counter, r1.rows, line);
  }

  /** An item outside the catalog is reported not_found and creates no order. */
  lemma ScenarioD()
    ensures var r := ApplyOrder(Catalog.OriginalStock(), [], 1, [], [RequestLine("eggs", Given(1))], "", "", "");
            r.unavailable == [Unavailable("eggs", NotFound)] && r.orderId == None
  {
    var inv := Catalog.OriginalStock();
    var line := RequestLine("eggs", Given(1));
    assert "eggs" !in inv;
    OneLine(inv, line);
  }

}

=== FILE: order_store.dfy ===
/**
 * The `orders` and `order_items` tables of storage.py, as values.
 *
 * A table is a sequence of rows; the row order carries no meaning except where
 * noted, and `UniqueIds` is the primary-key constraint on `orders.id`.
 * The effective definitions are the later ones in the file (lines 80-221),
 * except `save_order`, which exists only in the first half (line 33).
 */
module OrderStore {
  import opened Records

  /** The items_json column: text that json.loads either reads back as a line-item list or rejects. */
  datatype ItemsJson = Encoded(items: seq<LineItem>) | Unparsable

  datatype OrderRow = OrderRow(
    id: int, createdAt: string, status: Status, total: int,
    rawRequest: string, responseText: string, itemsJson: ItemsJson)

  /** A row of `order_items`; rowId is its AUTOINCREMENT key. */
  datatype ItemRow = ItemRow(rowId: int, orderId: int, name: string, qty: int, unitPrice: int, lineTotal: int)

  /** `order_items` together with the largest row id handed out so far. */
  datatype ItemTable = ItemTable(rows: seq<ItemRow>, lastRowId: int)

  /** The dict `_persist_order` receives; raw_request and response_text may be missing. */
  datatype OrderRecord = OrderRecord(
    id: int, createdAt: string, status: Status, total: int,
    rawRequest: Option<string>, responseText: Option<string>, items: seq<LineItem>)

  predicate UniqueIds(rows: seq<OrderRow>)
  {
    forall i, j :: 0 <= i < j < |rows| ==> rows[i].id != rows[j].id
  }

  predicate SortedIds(rows: seq<OrderRow>)
  {
    forall i, j :: 0 <= i < j < |rows| ==> rows[i].id <= rows[j].id
  }

  predicate StrictIds(rows: seq<OrderRow>)
  {
    forall i, j :: 0 <= i < j < |rows| ==> rows[i].id < rows[j].id
  }

  /** Number of `orders` rows whose id is `id`. */
  function CountId(rows: seq<OrderRow>, id: int): nat
  {
    if |rows| == 0 then 0
    else CountId(rows[..|rows| - 1], id) + (if rows[|rows| - 1].id == id then 1 else 0)
  }

  /** `DELETE FROM orders WHERE id = ?`, the first half of a REPLACE. */
  function Without(rows: seq<OrderRow>, id: int): (r: seq<OrderRow>)
    ensures |r| <= |rows|
    ensures forall i :: 0 <= i < |r| ==> r[i].id != id
  {
    if |rows| == 0 then []
    else
      var rest := Without(rows[..|rows| - 1], id);
      if rows[|rows| - 1].id == id then rest else rest + [rows[|rows| - 1]]
  }

  lemma {:induction false} WithoutMembers(rows: seq<OrderRow>, id: int)
    ensures forall row :: row in Without(rows, id) <==> row in rows && row.id != id
    decreases |rows|
  {
    if |rows| > 0 {
      var init := rows[..|rows| - 1];
      WithoutMembers(init, id);
      assert rows == init + [rows[|rows| - 1]];
    }
  }

  lemma {:induction false} CountIdAbsent(rows: seq<OrderRow>, id: int)
    requires forall i :: 0 <= i < |rows| ==> rows[i].id != id
    ensures CountId(rows, id) == 0
    decreases |rows|
  {
    if |rows| > 0 {
      CountIdAbsent(rows[..|rows| - 1], id);
    }
  }

  lemma {:induction false} WithoutKeepsUnique(rows: seq<OrderRow>, id: int)
    requires UniqueIds(rows)
    ensures UniqueIds(Without(rows, id))
    decreases |rows|
  {
    if |rows| > 0 {
      var init := rows[..|rows| - 1];
      var last := rows[|rows| - 1];
      WithoutKeepsUnique(init, id);
      if last.id != id {
        var rest := Without(init, id);
        WithoutMembers(init, id);
        forall k | 0 <= k < |rest|
          ensures rest[k].id != last.id
        {
          assert rest[k] in init;
        }
      }
    }
  }

  /** Deleting an id no row carries leaves the table as it was. */
  lemma {:induction false} WithoutAbsent(rows: seq<OrderRow>, id: int)
    requires forall i :: 0 <= i < |rows| ==> rows[i].id != id
    ensures Without(rows, id) == rows
    decreases |rows|
  {
    if |rows| > 0 {
      WithoutAbsent(rows[..|rows| - 1], id);
      assert rows == rows[..|rows| - 1] + [rows[|rows| - 1]];
    }
  }

  /** `INSERT OR REPLACE` / `REPLACE INTO orders`, keyed by the primary key id. */
  function Replace(rows: seq<OrderRow>, row: OrderRow): (r: seq<OrderRow>)
    ensures CountId(r, row.id) == 1
    ensures row in r
    ensures forall x: OrderRow :: x.id != row.id ==> (x in r <==> x in rows)
    ensures UniqueIds(rows) ==> UniqueIds(r)
  {
    var rest := Without(rows, row.id);
    WithoutMembers(rows, row.id);
    CountIdAbsent(rest, row.id);
    assert (rest + [row])[..|rest|] == rest;
    if UniqueIds(rows) then WithoutKeepsUnique(rows, row.id); rest + [row] else rest + [row]
  }

  /** `save_order` (storage.py:33): REPLACE the order's row, items serialised with json.dumps. */
  function SaveOrder(
    rows: seq<OrderRow>, id: int, status: Status, items: seq<LineItem>,
    rawRequest: string, responseText: string, total: int, createdAt: string): (r: seq<OrderRow>)
    ensures CountId(r, id) == 1
    ensures OrderRow(id, createdAt, status, total, rawRequest, responseText, Encoded(items)) in r
    ensures forall x: OrderRow :: x.id != id ==> (x in r <==> x in rows)
    ensures UniqueIds(rows) ==> UniqueIds(r)
  {
    Replace(rows, OrderRow(id, createdAt, status, total, rawRequest, responseText, Encoded(items)))
  }

  /** The `order_items` rows an order with these line items adds, in item order. */
  function AppendItems(t: ItemTable, orderId: int, items: seq<LineItem>): (r: ItemTable)
    ensures |r.rows| == |t.rows| + |items|
    ensures r.rows[..|t.rows|] == t.rows
    ensures r.lastRowId == t.lastRowId + |items|
    ensures forall i :: 0 <= i < |items| ==>
      r.rows[|t.rows| + i] == ItemRow(t.lastRowId + i + 1, orderId, items[i].name, items[i].qty,
                                     items[i].unitPrice, items[i].lineTotal)
  {
    if |items| == 0 then t
    else
      var before := AppendItems(t, orderId, items[..|items| - 1]);
      var it := items[|items| - 1];
      ItemTable(before.rows + [ItemRow(before.lastRowId + 1, orderId, it.name, it.qty, it.unitPrice, it.lineTotal)],
                before.lastRowId + 1)
  }

  function OrDefault(s: Option<string>): string
  {
    match s
    case Some(v) => v
    case None => ""
  }

  /** `_persist_order`: upsert the order's row, then insert one `order_items` row per line item. */
  function PersistOrder(rows: seq<OrderRow>, t: ItemTable, rec: OrderRecord): (r: (seq<OrderRow>, ItemTable))
    ensures CountId(r.0, rec.id) == 1
    ensures OrderRow(rec.id, rec.createdAt, rec.status, rec.total, OrDefault(rec.rawRequest),
                     OrDefault(rec.responseText), Encoded(rec.items)) in r.0
    ensures forall x: OrderRow :: x.id != rec.id ==> (x in r.0 <==> x in rows)
    ensures UniqueIds(rows) ==> UniqueIds(r.0)
    ensures |r.1.rows| == |t.rows| + |rec.items| && r.1.rows[..|t.rows|] == t.rows
    ensures forall i :: |t.rows| <= i < |r.1.rows| ==> r.1.rows[i].orderId == rec.id
  {
    var row := OrderRow(rec.id, rec.createdAt, rec.status, rec.total, OrDefault(rec.rawRequest),
                        OrDefault(rec.responseText), Encoded(rec.items));
    var t' := AppendItems(t, rec.id, rec.items);
    assert forall i :: |t.rows| <= i < |t'.rows| ==> t'.rows[i].orderId == rec.id by {
      forall i | |t.rows| <= i < |t'.rows|
        ensures t'.rows[i].orderId == rec.id
      {
        var k := i - |t.rows|;
        var it := rec.items[k];
        assert t'.rows[|t.rows| + k] == ItemRow(t.lastRowId + k + 1, rec.id, it.name, it.qty, it.unitPrice, it.lineTotal);
      }
    }
    (Replace(rows, row), t')
  }

  /** Number of `order_items` rows that belong to the order `id`. */
  function CountItemRows(rows: seq<ItemRow>, id: int): nat
  {
    if |rows| == 0 then 0
    else CountItemRows(rows[..|rows| - 1], id) + (if rows[|rows| - 1].orderId == id then 1 else 0)
  }

  lemma {:induction false} CountItemRowsAppend(a: seq<ItemRow>, b: seq<ItemRow>, id: int)
    ensures CountItemRows(a + b, id) == CountItemRows(a, id) + CountItemRows(b, id)
    decreases |b|
  {
    if |b| > 0 {
      assert (a + b)[..|a + b| - 1] == a + b[..|b| - 1];
      assert (a + b)[|a + b| - 1] == b[|b| - 1];
      CountItemRowsAppend(a, b[..|b| - 1], id);
    } else {
      assert a + b == a;
    }
  }

  lemma {:induction false} CountItemRowsAllOf(b: seq<ItemRow>, id: int)
    requires forall i :: 0 <= i < |b| ==> b[i].orderId == id
    ensures CountItemRows(b, id) == |b|
    decreases |b|
  {
    if |b| > 0 {
      CountItemRowsAllOf(b[..|b| - 1], id);
    }
  }

  /**
   * Persisting the same order twice keeps one `orders` row but inserts its line
   * items twice: the item table is appended to, never upserted.
   */
  lemma PersistTwiceDuplicatesItems(rows: seq<OrderRow>, t: ItemTable, rec: OrderRecord)
    ensures var once := PersistOrder(rows, t, rec);
            var twice := PersistOrder(once.0, once.1, rec);
            && CountId(twice.0, rec.id) == 1
            && CountItemRows(twice.1.rows, rec.id) == CountItemRows(t.rows, rec.id) + 2 * |rec.items|
  {
    var once := PersistOrder(rows, t, rec);
    PersistAddsItems(rows, t, rec);
    PersistAddsItems(once.0, once.1, rec);
  }

  /** One persist adds exactly one item row per line item to the order's count. */
  lemma PersistAddsItems(rows: seq<OrderRow>, t: ItemTable, rec: OrderRecord)
    ensures CountItemRows(PersistOrder(rows, t, rec).1.rows, rec.id) == CountItemRows(t.rows, rec.id) + |rec.items|
  {
    var after := PersistOrder(rows, t, rec).1.rows;
    var added := after[|t.rows|..];
    assert after == t.rows + added;
    CountItemRowsAppend(t.rows, added, rec.id);
    CountItemRowsAllOf(added, rec.id);
  }

  /** One row under `UPDATE orders SET status=? WHERE id=?`. */
  function Restatus(row: OrderRow, id: int, status: Status): OrderRow
  {
    if row.id == id then row.(status := status) else row
  }

  /** `update_order_status` (storage.py:189-193). */
  function UpdateOrderStatus(rows: seq<OrderRow>, id: int, status: Status): (r: seq<OrderRow>)
    ensures |r| == |rows|
    ensures forall i :: 0 <= i < |rows| && rows[i].id == id ==> r[i] == rows[i].(status := status)
    ensures forall i :: 0 <= i < |rows| && rows[i].id != id ==> r[i] == rows[i]
  {
    seq(|rows|, i requires 0 <= i < |rows| => Restatus(rows[i], id, status))
  }

  /**
   * The UPDATE changes the status of the rows with that id and nothing else:
   * no other field, no other row, and nothing at all when no row has the id.
   */
  lemma UpdateOrderStatusFrame(rows: seq<OrderRow>, id: int, status: Status)
    ensures var r := UpdateOrderStatus(rows, id, status);
            && |r| == |rows|
            && (forall i :: 0 <= i < |rows| ==> r[i].(status := rows[i].status) == rows[i])
            && (forall i :: 0 <= i < |rows| && rows[i].id == id ==> r[i].status == status)
            && (forall i :: 0 <= i < |rows| && rows[i].id != id ==> r[i] == rows[i])
            && ((forall i :: 0 <= i < |rows| ==> rows[i].id != id) ==> r == rows)
  {
  }

  /** Where insertion puts x: after the longest prefix ending in a row whose id is not above x's. */
  function InsertAt(x: OrderRow, s: seq<OrderRow>): (k: nat)
    ensures k <= |s|
    ensures forall i :: k <= i < |s| ==> x.id < s[i].id
    ensures k > 0 ==> s[k - 1].id <= x.id
  {
    if |s| == 0 || s[|s| - 1].id <= x.id then |s| else InsertAt(x, s[..|s| - 1])
  }

  /** One insertion-sort step: x goes in at InsertAt, every other row keeps its place. */
  function Insert(x: OrderRow, s: seq<OrderRow>): (r: seq<OrderRow>)
    ensures |r| == |s| + 1
    ensures multiset(r) == multiset(s) + multiset{x}
  {
    var k := InsertAt(x, s);
    assert s == s[..k] + s[k..];
    s[..k] + [x] + s[k..]
  }

  lemma {:induction false} InsertIndex(x: OrderRow, s: seq<OrderRow>)
    ensures var k := InsertAt(x, s);
            var r := Insert(x, s);
            && r[k] == x
            && (forall i :: 0 <= i < k ==> r[i] == s[i])
            && (forall i :: k < i <= |s| ==> r[i] == s[i - 1])
  {
    var k := InsertAt(x, s);
    var r := Insert(x, s);
    var a, b := s[..k], s[k..];
    assert r == a + [x] + b;
    forall i | 0 <= i < k
      ensures r[i] == s[i]
    {
      assert r[i] == a[i];
    }
    forall i | k < i <= |s|
      ensures r[i] == s[i - 1]
    {
      assert r[i] == b[i - k - 1];
    }
  }

  lemma InsertKeepsSorted(x: OrderRow, s: seq<OrderRow>)
    requires SortedIds(s)
    ensures SortedIds(Insert(x, s))
  {
    var k := InsertAt(x, s);
    var r := Insert(x, s);
    InsertIndex(x, s);
    forall i, j | 0 <= i < j < |r|
      ensures r[i].id <= r[j].id
    {
      if j < k {
      } else if j == k {
        if i < k { assert s[i].id <= s[k - 1].id; }
      } else if i < k {
        assert s[i].id <= s[j - 1].id;
      } else if i == k {
      } else {
      }
    }
  }

  lemma InsertKeepsStrict(x: OrderRow, s: seq<OrderRow>)
    requires StrictIds(s)
    requires forall i :: 0 <= i < |s| ==> s[i].id != x.id
    ensures StrictIds(Insert(x, s))
  {
    var k := InsertAt(x, s);
    var r := Insert(x, s);
    InsertIndex(x, s);
    forall i, j | 0 <= i < j < |r|
      ensures r[i].id < r[j].id
    {
      if j < k {
      } else if j == k {
        if i < k - 1 { assert s[i].id < s[k - 1].id; }
      } else if i < k {
        assert s[i].id < s[j - 1].id;
      } else if i == k {
      } else {
      }
    }
  }

  lemma MembersOfPermutation(a: seq<OrderRow>, b: seq<OrderRow>)
    requires multiset(a) == multiset(b)
    ensures forall y :: y in a <==> y in b
  {
    forall y
      ensures y in a <==> y in b
    {
      assert y in a <==> y in multiset(a);
      assert y in b <==> y in multiset(b);
    }
  }

  /** `ORDER BY id ASC`: an insertion sort on the primary key, a permutation of the table. */
  function SortById(s: seq<OrderRow>): (r: seq<OrderRow>)
    ensures |r| == |s|
    ensures multiset(r) == multiset(s)
  {
    if |s| == 0 then []
    else
      var init := s[..|s| - 1];
      assert s == init + [s[|s| - 1]];
      Insert(s[|s| - 1], SortById(init))
  }

  lemma {:induction false} SortByIdOrdered(s: seq<OrderRow>)
    ensures SortedIds(SortById(s))
    ensures UniqueIds(s) ==> StrictIds(SortById(s))
    decreases |s|
  {
    if |s| > 0 {
      var init := s[..|s| - 1];
      var last := s[|s| - 1];
      var sorted := SortById(init);
      SortByIdOrdered(init);
      InsertKeepsSorted(last, sorted);
      if UniqueIds(s) {
        MembersOfPermutation(sorted, init);
        forall i | 0 <= i < |sorted|
          ensures sorted[i].id != last.id
        {
          assert sorted[i] in init;
        }
        InsertKeepsStrict(last, sorted);
      }
    }
  }

  /** json.loads of items_json, then `[(i['name'], i['qty']) for i in items]`; unparsable text gives []. */
  function ItemsOf(j: ItemsJson): seq<Pair>
  {
    match j
    case Encoded(items) => Projection(items)
    case Unparsable => []
  }

  /** One stored row as the session's order dict. */
  function ToOrder(row: OrderRow): Order
  {
    Order(row.id, ItemsOf(row.itemsJson), row.status, row.total)
  }

  function ToOrders(rows: seq<OrderRow>): (r: seq<Order>)
    ensures |r| == |rows|
    ensures forall i :: 0 <= i < |rows| ==> r[i] == ToOrder(rows[i])
  {
    seq(|rows|, i requires 0 <= i < |rows| => ToOrder(rows[i]))
  }

  /** `load_orders` (storage.py:204-218): every stored row, ascending by id, items projected to pairs. */
  function LoadOrders(rows: seq<OrderRow>): (r: seq<Order>)
    ensures |r| == |rows|
    ensures forall i, j :: 0 <= i < j < |r| ==> r[i].id <= r[j].id
    ensures UniqueIds(rows) ==> AscendingIds(r)
  {
    SortByIdOrdered(rows);
    ToOrders(SortById(rows))
  }

  /**
   * What `load_orders` returns is exactly the projections of the stored rows: one
   * per row, a row with unparsable items_json giving an empty item list.
   */
  lemma LoadOrdersContents(rows: seq<OrderRow>)
    ensures forall row :: row in rows ==> ToOrder(row) in LoadOrders(rows)
    ensures forall o :: o in LoadOrders(rows) ==> exists row :: row in rows && o == ToOrder(row)
    ensures forall row :: row in rows && row.itemsJson.Unparsable? ==>
              Order(row.id, [], row.status, row.total) in LoadOrders(rows)
  {
    var sorted := SortById(rows);
    var r := LoadOrders(rows);
    MembersOfPermutation(sorted, rows);
    forall row | row in rows
      ensures ToOrder(row) in r
    {
      var i :| 0 <= i < |sorted| && sorted[i] == row;
      assert r[i] == ToOrder(row);
    }
    forall o | o in r
      ensures exists row :: row in rows && o == ToOrder(row)
    {
      var i :| 0 <= i < |r| && r[i] == o;
      assert sorted[i] in rows;
    }
  }

  /**
   * Round trip: after `save_order`, `load_orders` returns the order with its id,
   * status and total, and the (name, qty) projection of the saved line items;
   * with the primary key intact it is the only order carrying that id.
   */
  lemma SaveThenLoad(
    rows: seq<OrderRow>, id: int, status: Status, items: seq<LineItem>,
    rawRequest: string, responseText: string, total: int, createdAt: string)
    requires UniqueIds(rows)
    ensures var loaded := LoadOrders(SaveOrder(rows, id, status, items, rawRequest, responseText, total, createdAt));
            && Order(id, Projection(items), status, total) in loaded
            && forall o :: o in loaded && o.id == id ==> o == Order(id, Projection(items), status, total)
  {
    var saved := SaveOrder(rows, id, status, items, rawRequest, responseText, total, createdAt);
    var row := OrderRow(id, createdAt, status, total, rawRequest, responseText, Encoded(items));
    var loaded := LoadOrders(saved);
    LoadOrdersContents(saved);
    assert ToOrder(row) == Order(id, Projection(items), status, total);
    forall o | o in loaded && o.id == id
      ensures o == Order(id, Projection(items), status, total)
    {
      var x :| x in saved && o == ToOrder(x);
      var i :| 0 <= i < |saved| && saved[i] == x;
      var j :| 0 <= j < |saved| && saved[j] == row;
      assert saved[i].id == saved[j].id;
    }
  }

  /** Appending a row whose id exceeds every stored id appends its order at the end of the load. */
  lemma {:induction false} LoadAfterLargerId(rows: seq<OrderRow>, x: OrderRow)
    requires forall i :: 0 <= i < |rows| ==> rows[i].id < x.id
    ensures LoadOrders(rows + [x]) == LoadOrders(rows) + [ToOrder(x)]
  {
    var all := rows + [x];
    assert all[..|rows|] == rows;
    var sorted := SortById(rows);
    assert SortById(all) == Insert(x, sorted);
    if |sorted| > 0 {
      MembersOfPermutation(sorted, rows);
      assert sorted[|sorted| - 1] in rows;
    }
    InsertAtEnd(x, sorted);
    ToOrdersAppend(sorted, x);
  }

  lemma InsertAtEnd(x: OrderRow, s: seq<OrderRow>)
    requires |s| > 0 ==> s[|s| - 1].id <= x.id
    ensures Insert(x, s) == s + [x]
  {
    assert InsertAt(x, s) == |s|;
    assert s[..|s|] == s;
  }

  lemma ToOrdersAppend(s: seq<OrderRow>, x: OrderRow)
    ensures ToOrders(s + [x]) == ToOrders(s) + [ToOrder(x)]
  {
    var lhs := ToOrders(s + [x]);
    var rhs := ToOrders(s) + [ToOrder(x)];
    assert |lhs| == |rhs|;
    forall i | 0 <= i < |lhs|
      ensures lhs[i] == rhs[i]
    {
      if i < |s| {
        assert (s + [x])[i] == s[i];
      }
    }
  }

  /** The status change `UPDATE ... WHERE id` makes, seen on an order log. */
  function SetStatus(log: seq<Order>, id: int, status: Status): (r: seq<Order>)
    ensures |r| == |log|
    ensures forall i :: 0 <= i < |log| ==> r[i] == (if log[i].id == id then log[i].(status := status) else log[i])
  {
    seq(|log|, i requires 0 <= i < |log| => if log[i].id == id then log[i].(status := status) else log[i])
  }

  /** Insertion looks only at ids, so it lands at the same place before and after a status update. */
  lemma {:induction false} InsertAtUpdated(x: OrderRow, s: seq<OrderRow>, id: int, status: Status)
    ensures InsertAt(Restatus(x, id, status), UpdateOrderStatus(s, id, status)) == InsertAt(x, s)
    decreases |s|
  {
    var s' := UpdateOrderStatus(s, id, status);
    if |s| > 0 && s[|s| - 1].id > x.id {
      assert s'[..|s'| - 1] == UpdateOrderStatus(s[..|s| - 1], id, status);
      InsertAtUpdated(x, s[..|s| - 1], id, status);
    }
  }

  lemma {:induction false} InsertUpdated(x: OrderRow, s: seq<OrderRow>, id: int, status: Status)
    ensures Insert(Restatus(x, id, status), UpdateOrderStatus(s, id, status))
         == UpdateOrderStatus(Insert(x, s), id, status)
  {
    var k := InsertAt(x, s);
    var x' := Restatus(x, id, status);
    var s' := UpdateOrderStatus(s, id, status);
    InsertAtUpdated(x, s, id, status);
    assert Insert(x', s') == s'[..k] + [x'] + s'[k..];
    assert Insert(x, s) == s[..k] + [x] + s[k..];
    UpdateSplits(s, k, id, status);
    UpdateJoins(s[..k], [x], s[k..], id, status);
    assert UpdateOrderStatus([x], id, status) == [x'];
  }

  /** The status UPDATE of a slice is the slice of the UPDATE. */
  lemma UpdateSplits(s: seq<OrderRow>, k: nat, id: int, status: Status)
    requires k <= |s|
    ensures UpdateOrderStatus(s, id, status)[..k] == UpdateOrderStatus(s[..k], id, status)
    ensures UpdateOrderStatus(s, id, status)[k..] == UpdateOrderStatus(s[k..], id, status)
  {
  }

  /** The status UPDATE of three tables laid end to end is their UPDATEs laid end to end. */
  lemma UpdateJoins(a: seq<OrderRow>, b: seq<OrderRow>, c: seq<OrderRow>, id: int, status: Status)
    ensures UpdateOrderStatus(a + b + c, id, status)
         == UpdateOrderStatus(a, id, status) + UpdateOrderStatus(b, id, status) + UpdateOrderStatus(c, id, status)
  {
  }

  lemma {:induction false} SortUpdated(s: seq<OrderRow>, id: int, status: Status)
    ensures SortById(UpdateOrderStatus(s, id, status)) == UpdateOrderStatus(SortById(s), id, status)
    decreases |s|
  {
    if |s| > 0 {
      var s' := UpdateOrderStatus(s, id, status);
      var init := s[..|s| - 1];
      assert s'[..|s'| - 1] == UpdateOrderStatus(init, id, status);
      SortUpdated(init, id, status);
      InsertUpdated(s[|s| - 1], SortById(init), id, status);
    }
  }

  /** A status UPDATE on the table is the same status change on the loaded log. */
  lemma LoadAfterStatusUpdate(rows: seq<OrderRow>, id: int, status: Status)
    ensures LoadOrders(UpdateOrderStatus(rows, id, status)) == SetStatus(LoadOrders(rows), id, status)
  {
    SortUpdated(rows, id, status);
    ToOrdersUpdated(SortById(rows), id, status);
  }

  /** Projecting rows to orders commutes with the status change. */
  lemma ToOrdersUpdated(s: seq<OrderRow>, id: int, status: Status)
    ensures ToOrders(UpdateOrderStatus(s, id, status)) == SetStatus(ToOrders(s), id, status)
  {
    var lhs := ToOrders(UpdateOrderStatus(s, id, status));
    var rhs := SetStatus(ToOrders(s), id, status);
    forall i | 0 <= i < |lhs|
      ensures lhs[i] == rhs[i]
    {
      assert lhs[i] == ToOrder(Restatus(s[i], id, status));
    }
  }
}

=== FILE: reconcile.dfy ===
/**
 * Inventory reconciliation: the rebuild of the remaining stock from the order log
 * that app.py runs at startup (lines 49-54) and in `recompute_inventory_from_orders`
 * (lines 203-210). Both loops are the same fold, so it is defined once here.
 */
module Reconcile {
  import opened Records

  /** `max(0, x)`. */
  function Clamp(x: int): int
  {
    if x < 0 then 0 else x
  }

  /** One `(item_name, qty)` step of the rebuild: clamp at zero, skip names the map lacks. */
  function ApplyPair(m: map<string, int>, p: Pair): (r: map<string, int>)
    ensures r.Keys == m.Keys
    ensures forall k :: k in m && k != p.0 ==> r[k] == m[k]
    ensures p.0 in m ==> r[p.0] >= 0
  {
    if p.0 in m then m[p.0 := Clamp(m[p.0] - p.1)] else m
  }

  /** The inner loop over one order's items, left to right. */
  function FoldPairs(m: map<string, int>, ps: seq<Pair>): (r: map<string, int>)
    ensures r.Keys == m.Keys
    ensures forall k :: k in m && (forall j :: 0 <= j < |ps| ==> ps[j].0 != k) ==> r[k] == m[k]
    ensures NonNegative(m) ==> NonNegative(r)
  {
    if |ps| == 0 then m else ApplyPair(FoldPairs(m, ps[..|ps| - 1]), ps[|ps| - 1])
  }

  /** The whole rebuild: start from the catalog stock, fold every order of the log in order, whatever its status. */
  function Recompute(base: map<string, int>, log: seq<Order>): (r: map<string, int>)
    ensures r.Keys == base.Keys
    ensures NonNegative(base) ==> NonNegative(r)
  {
    if |log| == 0 then base else FoldPairs(Recompute(base, log[..|log| - 1]), log[|log| - 1].items)
  }

  /** Every quantity recorded in the log is non-negative. */
  predicate NonNegQtys(log: seq<Order>)
  {
    forall o :: o in log ==> forall p :: p in o.items ==> p.1 >= 0
  }

  /** Total quantity of `name` over a list of pairs. */
  function QtyFor(name: string, ps: seq<Pair>): int
  {
    if |ps| == 0 then 0
    else QtyFor(name, ps[..|ps| - 1]) + (if ps[|ps| - 1].0 == name then ps[|ps| - 1].1 else 0)
  }

  /** Total quantity of `name` over every order of a log. */
  function TotalQty(name: string, log: seq<Order>): int
  {
    if |log| == 0 then 0 else TotalQty(name, log[..|log| - 1]) + QtyFor(name, log[|log| - 1].items)
  }

  lemma {:induction false} QtyForNonNeg(name: string, ps: seq<Pair>)
    requires forall p :: p in ps ==> p.1 >= 0
    ensures QtyFor(name, ps) >= 0
    decreases |ps|
  {
    if |ps| > 0 {
      assert ps[|ps| - 1] in ps;
      QtyForNonNeg(name, ps[..|ps| - 1]);
    }
  }

  lemma {:induction false} TotalQtyNonNeg(name: string, log: seq<Order>)
    requires NonNegQtys(log)
    ensures TotalQty(name, log) >= 0
    decreases |log|
  {
    if |log| > 0 {
      assert log[|log| - 1] in log;
      QtyForNonNeg(name, log[|log| - 1].items);
      TotalQtyNonNeg(name, log[..|log| - 1]);
    }
  }

  /** The rebuild never produces a negative stock level from a non-negative catalog. */
  lemma {:induction false} RecomputeNonNegative(base: map<string, int>, log: seq<Order>)
    requires NonNegative(base)
    ensures NonNegative(Recompute(base, log))
    decreases |log|
  {
    if |log| > 0 {
      RecomputeNonNegative(base, log[..|log| - 1]);
      FoldPairsNonNegative(Recompute(base, log[..|log| - 1]), log[|log| - 1].items);
    }
  }

  lemma {:induction false} FoldPairsNonNegative(m: map<string, int>, ps: seq<Pair>)
    requires NonNegative(m)
    ensures NonNegative(FoldPairs(m, ps))
    decreases |ps|
  {
    if |ps| > 0 {
      FoldPairsNonNegative(m, ps[..|ps| - 1]);
    }
  }

  /** With non-negative quantities, folding a list of pairs subtracts their total once, clamped at zero. */
  lemma {:induction false} FoldPairsClosedForm(m: map<string, int>, ps: seq<Pair>)
    requires NonNegative(m)
    requires forall p :: p in ps ==> p.1 >= 0
    ensures forall k :: k in m ==> FoldPairs(m, ps)[k] == Clamp(m[k] - QtyFor(k, ps))
    decreases |ps|
  {
    if |ps| > 0 {
      var init := ps[..|ps| - 1];
      assert forall p :: p in init ==> p in ps;
      assert ps[|ps| - 1] in ps;
      FoldPairsClosedForm(m, init);
      forall k | k in m
        ensures k in m ==> QtyFor(k, init) >= 0
      {
        QtyForNonNeg(k, init);
      }
    }
  }

  /**
   * With a non-negative catalog and log, each rebuilt level is the catalog stock
   * minus everything ever ordered of that item, clamped at zero.
   */
  /** Clamping after each of two non-negative decrements is clamping once after both. */
  lemma ClampTwice(a: int, t: int, q: int)
    requires t >= 0 && q >= 0
    ensures Clamp(Clamp(a - t) - q) == Clamp(a - (t + q))
  {
  }

  lemma {:induction false} RecomputeClosedForm(base: map<string, int>, log: seq<Order>)
    requires NonNegative(base)
    requires NonNegQtys(log)
    ensures forall k :: k in base ==> Recompute(base, log)[k] == Clamp(base[k] - TotalQty(k, log))
    decreases |log|
  {
    if |log| > 0 {
      var init := log[..|log| - 1];
      var last := log[|log| - 1];
      assert forall o :: o in init ==> o in log;
      assert last in log;
      RecomputeClosedForm(base, init);
      RecomputeNonNegative(base, init);
      FoldPairsClosedForm(Recompute(base, init), last.items);
      var m := Recompute(base, init);
      forall k | k in base
        ensures Recompute(base, log)[k] == Clamp(base[k] - TotalQty(k, log))
      {
        TotalQtyNonNeg(k, init);
        QtyForNonNeg(k, last.items);
        assert Recompute(base, log)[k] == Clamp(m[k] - QtyFor(k, last.items));
        ClampTwice(base[k], TotalQty(k, init), QtyFor(k, last.items));
      }
    }
  }

  /** Invariant of the rebuild: every level lies between zero and the catalog stock. */
  lemma RecomputeBounds(base: map<string, int>, log: seq<Order>)
    requires NonNegative(base)
    requires NonNegQtys(log)
    ensures forall k :: k in base ==> 0 <= Recompute(base, log)[k] <= base[k]
  {
    RecomputeClosedForm(base, log);
    forall k | k in base
      ensures 0 <= Recompute(base, log)[k] <= base[k]
    {
      TotalQtyNonNeg(k, log);
    }
  }

  lemma {:induction false} FoldPairsUnknownNames(m: map<string, int>, ps: seq<Pair>)
    requires forall p :: p in ps ==> p.0 !in m
    ensures FoldPairs(m, ps) == m
    decreases |ps|
  {
    if |ps| > 0 {
      assert ps[|ps| - 1] in ps;
      assert forall p :: p in ps[..|ps| - 1] ==> p in ps;
      FoldPairsUnknownNames(m, ps[..|ps| - 1]);
    }
  }

  /** Names that are not in the catalog are ignored: an order of only such names changes nothing. */
  lemma UnknownNamesIgnored(base: map<string, int>, log: seq<Order>, o: Order)
    requires forall p :: p in o.items ==> p.0 !in base
    ensures Recompute(base, log + [o]) == Recompute(base, log)
  {
    var all := log + [o];
    assert all[..|all| - 1] == log;
    var before := Recompute(base, log);
    FoldPairsUnknownNames(before, o.items);
  }

  lemma {:induction false} TotalQtyAppend(name: string, a: seq<Order>, b: seq<Order>)
    ensures TotalQty(name, a + b) == TotalQty(name, a) + TotalQty(name, b)
    decreases |b|
  {
    if |b| == 0 {
      assert a + b == a;
    } else {
      assert (a + b)[..|a + b| - 1] == a + b[..|b| - 1];
      assert (a + b)[|a + b| - 1] == b[|b| - 1];
      TotalQtyAppend(name, a, b[..|b| - 1]);
    }
  }

  /** Taking one order out of a log removes exactly its quantity from the total. */
  lemma RemoveOne(name: string, b: seq<Order>, j: nat)
    requires j < |b|
    ensures multiset(b[..j] + b[j + 1..]) == multiset(b) - multiset{b[j]}
    ensures TotalQty(name, b) == TotalQty(name, b[..j] + b[j + 1..]) + QtyFor(name, b[j].items)
  {
    var x := b[j];
    assert b == b[..j] + [x] + b[j + 1..];
    TotalQtyAppend(name, b[..j] + [x], b[j + 1..]);
    TotalQtyAppend(name, b[..j], [x]);
    TotalQtyAppend(name, b[..j], b[j + 1..]);
    assert [x][..0] == [];
  }

  /** Reordering the log does not change how much of an item it orders. */
  lemma {:induction false} TotalQtyPermutation(name: string, a: seq<Order>, b: seq<Order>)
    requires multiset(a) == multiset(b)
    ensures TotalQty(name, a) == TotalQty(name, b)
    decreases |a|
  {
    if |a| == 0 {
      assert |multiset(b)| == 0;
    } else {
      var init := a[..|a| - 1];
      var x := a[|a| - 1];
      assert a == init + [x];
      assert multiset(init) == multiset(a) - multiset{x};
      assert x in multiset(b);
      var j :| 0 <= j < |b| && b[j] == x;
      RemoveOne(name, b, j);
      TotalQtyPermutation(name, init, b[..j] + b[j + 1..]);
    }
  }

  /** The rebuild does not depend on the order of the log (with non-negative quantities). */
  lemma RecomputeOrderInsensitive(base: map<string, int>, a: seq<Order>, b: seq<Order>)
    requires NonNegative(base)
    requires NonNegQtys(a)
    requires multiset(a) == multiset(b)
    ensures Recompute(base, a) == Recompute(base, b)
  {
    forall o | o in b
      ensures o in a
    {
      assert o in multiset(b);
    }
    RecomputeClosedForm(base, a);
    RecomputeClosedForm(base, b);
    forall k | k in base
      ensures Recompute(base, a)[k] == Recompute(base, b)[k]
    {
      TotalQtyPermutation(k, a, b);
    }
  }
}

=== FILE: records.dfy ===
/** Values shared by the storage layer and the order engine of the kirana ordering app. */
module Records {

  datatype Option<T> = None | Some(value: T)

  /** Order status. The app only ever writes these three values to the status column. */
  datatype Status = Processing | OutForDelivery | Delivered

  /** Position of a status on the forward-only lifecycle. */
  function Rank(s: Status): nat
  {
    match s
    case Processing => 0
    case OutForDelivery => 1
    case Delivered => 2
  }

  /** An accepted (item name, quantity) pair, as the in-memory order log keeps it. */
  type Pair = (string, int)

  /** One fulfilled line of an order, the dict serialised into items_json. */
  datatype LineItem = LineItem(name: string, qty: int, unitPrice: int, lineTotal: int)

  /** An order as the session holds it: the dict {id, items, status, total_amount}. */
  datatype Order = Order(id: int, items: seq<Pair>, status: Status, total: int)

  /** The (name, qty) projection of stored line items. */
  function Projection(items: seq<LineItem>): seq<Pair>
  {
    seq(|items|, i requires 0 <= i < |items| => (items[i].name, items[i].qty))
  }

  /** No stock level is negative. */
  predicate NonNegative(m: map<string, int>)
  {
    forall k :: k in m ==> m[k] >= 0
  }

  /** Order ids strictly increase along the log. */
  predicate AscendingIds(log: seq<Order>)
  {
    forall i, j :: 0 <= i < j < |log| ==> log[i].id < log[j].id
  }
}

=== FILE: session.dfy ===
/**
 * The session of app.py: the state Streamlit keeps between reruns (inventory,
 * order log, order counter, chat) and how it is built at startup from the
 * database (lines 28-54), changed by an order (`apply_order`), by a status
 * pass (`update_statuses`) and by `recompute_inventory_from_orders`.
 *
 * Two invariants tie it together. `Consistent`: the inventory is what the
 * rebuild from the catalog and the log gives, the log's ids ascend, and the
 * counter is above all of them. `Mirrored`: loading the `orders` table gives
 * back the log.
 */
module Session {
  import opened Records
  import Catalog
  import OrderStore
  import ChatStore
  import Reconcile
  import OrderEngine
  import Lifecycle

  /** The two persisted tables the session reads and writes. */
  datatype Db = Db(orders: seq<OrderStore.OrderRow>, chat: ChatStore.ChatTable)

  datatype AppState = AppState(
    inventory: map<string, int>, orders: seq<Order>, counter: int, chat: seq<ChatStore.ChatMessage>)

  /** The order counter after loading (lines 36-37, 42-45): one past the last loaded id, and never below 1. */
  function NextCounter(loaded: seq<Order>): (c: int)
    ensures c >= 1
    ensures |loaded| > 0 && loaded[|loaded| - 1].id >= 1 ==> c == loaded[|loaded| - 1].id + 1
    ensures |loaded| == 0 || loaded[|loaded| - 1].id < 1 ==> c == 1
    ensures AscendingIds(loaded) ==> forall i :: 0 <= i < |loaded| ==> loaded[i].id < c
  {
    if |loaded| > 0 && loaded[|loaded| - 1].id >= 1 then loaded[|loaded| - 1].id + 1 else 1
  }

  /** `recompute_inventory_from_orders` (lines 203-210): the stock rebuilt from the log alone. */
  function RecomputeInventory(st: AppState): (r: AppState)
    ensures r.orders == st.orders && r.counter == st.counter && r.chat == st.chat
    ensures r.inventory.Keys == Catalog.OriginalStock().Keys
  {
    st.(inventory := Reconcile.Recompute(Catalog.OriginalStock(), st.orders))
  }

  /** The first run of a session (lines 28-54): load orders and chat, set the counter, rebuild the stock. */
  function Startup(db: Db): (st: AppState)
    requires ChatStore.WellFormed(db.chat)
    ensures st.orders == OrderStore.LoadOrders(db.orders)
    ensures st.chat == ChatStore.LoadChat(db.chat, 200)
    ensures st.counter >= 1
    ensures |st.orders| > 0 && st.orders[|st.orders| - 1].id >= 1 ==> st.counter == st.orders[|st.orders| - 1].id + 1
    ensures |st.orders| == 0 || st.orders[|st.orders| - 1].id < 1 ==> st.counter == 1
    ensures st.inventory == Reconcile.Recompute(Catalog.OriginalStock(), st.orders)
  {
    var loaded := OrderStore.LoadOrders(db.orders);
    RecomputeInventory(AppState(map[], loaded, NextCounter(loaded), ChatStore.LoadChat(db.chat, 200)))
  }

  predicate Consistent(st: AppState)
  {
    && st.counter >= 1
    && AscendingIds(st.orders)
    && (forall i :: 0 <= i < |st.orders| ==> st.orders[i].id < st.counter)
    && st.inventory == Reconcile.Recompute(Catalog.OriginalStock(), st.orders)
  }

  predicate Mirrored(st: AppState, db: Db)
  {
    Lifecycle.Mirrors(st.orders, db.orders)
  }

  /** A database whose `orders` ids are a primary key starts a consistent, mirrored session. */
  lemma StartupConsistent(db: Db)
    requires OrderStore.UniqueIds(db.orders) && ChatStore.WellFormed(db.chat)
    ensures Consistent(Startup(db))
    ensures Mirrored(Startup(db), db)
  {
  }

  /** After startup the counter is an id no stored order has: the next order cannot overwrite one. */
  lemma StartupCounterIsFresh(db: Db)
    requires OrderStore.UniqueIds(db.orders) && ChatStore.WellFormed(db.chat)
    ensures OrderStore.CountId(db.orders, Startup(db).counter) == 0
  {
    var st := Startup(db);
    OrderStore.LoadOrdersContents(db.orders);
    forall i | 0 <= i < |db.orders|
      ensures db.orders[i].id != st.counter
    {
      assert OrderStore.ToOrder(db.orders[i]) in st.orders;
    }
    OrderStore.CountIdAbsent(db.orders, st.counter);
  }

  /** In a mirrored session the counter is above every stored id. */
  lemma MirroredIdsBelowCounter(st: AppState, db: Db)
    requires Consistent(st) && Mirrored(st, db)
    ensures forall i :: 0 <= i < |db.orders| ==> db.orders[i].id < st.counter
  {
    OrderStore.LoadOrdersContents(db.orders);
    forall i | 0 <= i < |db.orders|
      ensures db.orders[i].id < st.counter
    {
      assert OrderStore.ToOrder(db.orders[i]) in st.orders;
    }
  }

  /** `apply_order` on the session and the database; the outcome is what it returns. */
  function PlaceOrder(
    st: AppState, db: Db, lines: seq<OrderEngine.RequestLine>,
    rawRequest: string, responseText: string, createdAt: string): (r: (AppState, Db, OrderEngine.Outcome))
    ensures r.2 == OrderEngine.ApplyOrder(st.inventory, st.orders, st.counter, db.orders, lines, rawRequest, responseText, createdAt)
    ensures var s := OrderEngine.ScanLines(st.inventory, lines);
            r.2.applied == s.applied && r.2.unavailable == s.unavailable && r.0.inventory == s.inventory
    ensures r.0.chat == st.chat && r.1.chat == db.chat
    ensures r.0.orders == r.2.log && r.0.counter == r.2.counter && r.0.inventory == r.2.inventory
    ensures r.1.orders == r.2.rows
  {
    var o := OrderEngine.ApplyOrder(st.inventory, st.orders, st.counter, db.orders, lines, rawRequest, responseText, createdAt);
    (AppState(o.inventory, o.log, o.counter, st.chat), db.(orders := o.rows), o)
  }

  /** The rebuild of a log with one more order is the old rebuild with that order's items folded in. */
  lemma RecomputeAppend(base: map<string, int>, log: seq<Order>, o: Order)
    ensures Reconcile.Recompute(base, log + [o]) == Reconcile.FoldPairs(Reconcile.Recompute(base, log), o.items)
  {
    assert (log + [o])[..|log|] == log;
  }

  /** An order keeps the session consistent: the decremented stock is the rebuild of the longer log. */
  lemma PlaceOrderConsistent(
    st: AppState, db: Db, lines: seq<OrderEngine.RequestLine>,
    rawRequest: string, responseText: string, createdAt: string)
    requires Consistent(st)
    ensures Consistent(PlaceOrder(st, db, lines, rawRequest, responseText, createdAt).0)
  {
    var o := OrderEngine.ApplyOrder(st.inventory, st.orders, st.counter, db.orders, lines, rawRequest, responseText, createdAt);
    if o.orderId.Some? {
      var added := Order(st.counter, o.applied, Processing, OrderEngine.Amount(o.applied));
      AppendedIdsAscend(st, added);
      OrderEngine.ScanIsFold(st.inventory, lines);
      RecomputeAppend(Catalog.OriginalStock(), st.orders, added);
    }
  }

  /** An order carrying the counter's id keeps the log ascending and below the next counter. */
  lemma AppendedIdsAscend(st: AppState, added: Order)
    requires Consistent(st) && added.id == st.counter
    ensures AscendingIds(st.orders + [added])
    ensures forall i :: 0 <= i < |st.orders + [added]| ==> (st.orders + [added])[i].id < st.counter + 1
  {
  }

  /** An order keeps the table mirroring the log: save_order's row loads back as the appended order. */
  lemma PlaceOrderMirrored(
    st: AppState, db: Db, lines: seq<OrderEngine.RequestLine>,
    rawRequest: string, responseText: string, createdAt: string)
    requires Consistent(st) && Mirrored(st, db)
    ensures var r := PlaceOrder(st, db, lines, rawRequest, responseText, createdAt);
            Mirrored(r.0, r.1)
  {
    var o := OrderEngine.ApplyOrder(st.inventory, st.orders, st.counter, db.orders, lines, rawRequest, responseText, createdAt);
    if o.orderId.Some? {
      var s := OrderEngine.ScanLines(st.inventory, lines);
      OrderEngine.ScanTotal(st.inventory, lines);
      var row := OrderStore.OrderRow(st.counter, createdAt, Processing, s.total, rawRequest, responseText,
                                     OrderStore.Encoded(s.details));
      MirroredIdsBelowCounter(st, db);
      OrderStore.WithoutAbsent(db.orders, st.counter);
      assert o.rows == db.orders + [row];
      OrderStore.LoadAfterLargerId(db.orders, row);
      assert OrderStore.ToOrder(row) == Order(st.counter, o.applied, Processing, OrderEngine.Amount(o.applied));
    }
  }

  /** The rebuild reads only the items of the log: a log that differs only in statuses rebuilds the same. */
  lemma {:induction false} RecomputeIgnoresStatus(base: map<string, int>, a: seq<Order>, b: seq<Order>)
    requires |a| == |b|
    requires forall i :: 0 <= i < |a| ==> a[i].items == b[i].items
    ensures Reconcile.Recompute(base, a) == Reconcile.Recompute(base, b)
    decreases |a|
  {
    if |a| > 0 {
      RecomputeIgnoresStatus(base, a[..|a| - 1], b[..|b| - 1]);
    }
  }

  /** "Progress Status Simulation": one `update_statuses` pass over the session and the database. */
  method ProgressStatuses(st: AppState, db: Db) returns (st': AppState, db': Db)
    ensures st' == st.(orders := Lifecycle.AdvanceAll(st.orders))
    ensures db' == db.(orders := Lifecycle.ApplyWrites(db.orders, Lifecycle.ChangedWrites(st.orders)))
    ensures Consistent(st) ==> Consistent(st')
    ensures Mirrored(st, db) ==> Mirrored(st', db')
  {
    var log', rows', writes := Lifecycle.UpdateStatuses(st.orders, db.orders);
    st' := st.(orders := log');
    db' := db.(orders := rows');
    if Consistent(st) {
      AdvanceAllConsistent(st);
    }
  }

  /** A status pass touches neither ids nor items, so it keeps a session consistent. */
  lemma AdvanceAllConsistent(st: AppState)
    requires Consistent(st)
    ensures Consistent(st.(orders := Lifecycle.AdvanceAll(st.orders)))
  {
    var log' := Lifecycle.AdvanceAll(st.orders);
    RecomputeIgnoresStatus(Catalog.OriginalStock(), st.orders, log');
    assert forall i :: 0 <= i < |log'| ==> log'[i].id == st.orders[i].id;
  }

  /** In a consistent session "Recompute Inventory" changes nothing: the running stock never drifts from the log. */
  lemma RecomputeIsNoOp(st: AppState)
    requires Consistent(st)
    ensures RecomputeInventory(st) == st
  {
  }

  /** Recomputing twice is recomputing once. */
  lemma RecomputeIdempotent(st: AppState)
    ensures RecomputeInventory(RecomputeInventory(st)) == RecomputeInventory(st)
  {
  }

  /** With no negative quantity in the log, every stock level of a consistent session is within [0, catalog stock]. */
  lemma StockWithinCatalog(st: AppState)
    requires Consistent(st)
    requires Reconcile.NonNegQtys(st.orders)
    ensures forall k :: k in Catalog.OriginalStock() ==> 0 <= st.inventory[k] <= Catalog.OriginalStock()[k]
  {
    var base := Catalog.OriginalStock();
    assert NonNegative(base);
    Reconcile.RecomputeBounds(base, st.orders);
  }
}
